=== FILE: README.md ===
# Abstract generator, modelled in Dafny

The abstract generator reads a table of conference abstracts (one row per
abstract) and writes a Word document with one page section per row. There
are two layouts:

- "aini2016": title, a byline of authors and affiliations with superscript
  reference numbers, DOI, abstract, an optional figure with its caption,
  references, acknowledgement, funding and a citation line.
- "jscpb2016": title, authors, affiliations, abstract and keywords, with
  `<i>`, `<sup>` and `<sub>` markup applied to the title and abstract.

This project models that generator (`abstract_generator/AbstractGenerator.py`)
as pure Dafny functions over plain data and proves what it computes:

- `wrappers.dfy` (`Wrappers`): `Option` and `Result`.
- `pytext.dfy` (`PyText`): the Python string operations the generator uses.
  These are `str.strip` with Python's exact whitespace set, `str.split` on
  one character, `str.replace` on one character, and `join`.
- `cells.dfy` (`Cells`): a table cell, either text or a blank (NaN) cell.
  Also `_empty` and `_to_array`.
- `parens.dfy` (`Parens`): the split on `\((\w+)\)` and `_remove_parentheses`,
  both as the function the loop computes and as the loop itself.
- `names.dfy` (`Names`): the author pattern `^([^\)]+)((?:\(.+\))*)$` and the
  affiliation pattern `^((?:\(.+\))*)(.+)$`. Each is modelled as the language
  it accepts plus the match that backtracking chooses (the longest first
  group). The module also parses author and affiliation lines.
- `markup.dfy` (`Markup`): the lazy tag split `(\<.*?\>.*?\</.*?\>)`, the tag
  stripper `<[^>]*?>` and `_apply_it_sup_sub`.
- `imagesize.dfy` (`ImageSize`): `_get_image_size` and the resolution choice
  and clamp of `_get_preferred_image_size`.
- `docs.dfy` (`Docs`): the document as data (sections, paragraphs, runs).
- `records.dfy` (`Records`): a row as a map from column to cell. Every way
  the generator can fail on a row is a value of `Error`.
- `aini.dfy` (`Aini`) and `jscpb.dfy` (`Jscpb`): the two layouts. Each is a
  function from a row to its paragraphs, or to the first error in the order
  the generator reads the columns.
- `generator.dfy` (`Generator`): the section loop of `write_docx` and the
  choice of layout.

Every exception the generator raises on the data the model represents is
modelled as an `Err`. This covers a missing column, a blank cell used as text, a line the
author or affiliation pattern rejects (`m.group` on `None`), a missing image,
a zero resolution and an empty affiliations cell in the jscpb layout
(`p.runs[0]` of a paragraph without runs). `write_docx` stops at the first
such row.

Some consequences of the code that are easy to miss:

- An author line such as "Jane Doe (1,2)" keeps "(1,2)" as its reference
  text: ',' is not a word character, so "(1,2)" is not a reference group
  and `_remove_parentheses` returns it unchanged
  (`Parens.RemoveParenthesesCommaGroup`). Adjacent groups such as
  "(1)(2)" become "1, 2" (`Names.JaneDoeExample`), and so do groups
  separated only by whitespace, as in "(1) (2)". Anything else between two
  groups becomes an item of its own: "(1), (2)" gives "1, ,, 2"
  (`Parens.RemoveParenthesesOfTwoGroupsAround`).
- The acknowledgement heading is "Ackknowledgement: " (line 318), spelled
  as the code spells it.
- The result of `_remove_parentheses` can start with ", ": when the text
  itself starts with ", " the result does too
  (`Parens.RemoveParenthesesMayLeadWithSeparator`). What holds is that the
  result never starts or ends with whitespace (`Parens.RemoveParenthesesTrimmed`).

## Model

| member | source | states |
|---|---|---|
| `PyText.Strip` | abstract_generator/AbstractGenerator.py:51 | `strip()` gives a result no longer than its input that neither starts nor ends with whitespace, using Python's `isspace` set |
| `PyText.StripIsTrim` | abstract_generator/AbstractGenerator.py:51 | `strip()` removes exactly the leading and trailing whitespace: the result is the factor `s[i..j]` with all-whitespace text before and after it and non-whitespace at both of its ends |
| `PyText.StripUnique` | abstract_generator/AbstractGenerator.py:51 | any factor with whitespace-only text around it and non-whitespace ends is the result of `strip()`, so the stripped text is determined uniquely |
| `PyText.StripEmptyIffBlank` | abstract_generator/AbstractGenerator.py:51 | `text.strip() == ''` holds exactly when every character is whitespace |
| `PyText.SplitJoin` | abstract_generator/AbstractGenerator.py:56 | joining the pieces of `split(delim)` with the delimiter gives back the text |
| `PyText.JoinSplit` | abstract_generator/AbstractGenerator.py:56 | conversely, splitting the join of delimiter-free pieces gives back exactly those pieces |
| `Cells.EmptyIff` | abstract_generator/AbstractGenerator.py:47-51 | a cell is empty exactly when it is NaN or all whitespace; a cell holding a non-whitespace character is never empty |
| `Cells.ToArray` | abstract_generator/AbstractGenerator.py:53-57 | an empty cell gives no items; otherwise the items are exactly the pieces of the split that are not all whitespace, and none of them holds the delimiter |
| `Cells.ToArrayOfText` | abstract_generator/AbstractGenerator.py:53-57 | for a text cell the emptiness guard changes nothing: a blank text splits into blank pieces only, which the filter drops, so `_to_array` is the filtered split for every text |
| `Cells.NonBlankOne` | abstract_generator/AbstractGenerator.py:57 | the filter keeps a single piece unless it is all whitespace |
| `Cells.NonBlankAppend` | abstract_generator/AbstractGenerator.py:57 | the filter works piece by piece over a concatenation, so kept pieces keep their order and their repetitions |
| `Cells.ToArrayOfLines` | abstract_generator/AbstractGenerator.py:53-57 | a cell made of lines joined by the delimiter yields exactly its non-blank lines, in order and with duplicates |
| `Cells.ToArrayNonEmpty` | abstract_generator/AbstractGenerator.py:53-57 | with a whitespace delimiter such as '\n', a cell that is not empty yields at least one item |
| `Parens.GroupSplitShape` | abstract_generator/AbstractGenerator.py:61-62 | `re.split(r'\((\w+)\)', text)` alternates: odd pieces are words, and even pieces contain no group, so the split is leftmost-first |
| `Parens.GroupSplitRoundTrip` | abstract_generator/AbstractGenerator.py:61-62 | putting each word back in parentheses between the text pieces gives the original text |
| `Parens.RemoveParenthesesTrimmed` | abstract_generator/AbstractGenerator.py:59-71 | the normalised references never start or end with whitespace |
| `Parens.RemoveParenthesesLoop` | abstract_generator/AbstractGenerator.py:63-71 | the loop as written, which adds ", " only after something has been collected, computes the stripped non-empty pieces joined with ", " |
| `Parens.RemoveParenthesesOfGroup` | abstract_generator/AbstractGenerator.py:59-71 | one reference group `(w)` normalises to `w` |
| `Parens.RemoveParenthesesOfTwoGroups` | abstract_generator/AbstractGenerator.py:59-71 | two adjacent groups `(a)(b)` normalise to "a, b" |
| `Parens.RemoveParenthesesOfTwoGroupsAround` | abstract_generator/AbstractGenerator.py:59-71 | two groups `(a)` and `(b)` with text `m` between them (no '(' in `m`): a blank `m` gives "a, b"; any other `m` gives "a, " + `m` stripped + ", b" |
| `Parens.RemoveParenthesesCommaGroup` | abstract_generator/AbstractGenerator.py:59-71 | `(a,b)` is not a group and comes back unchanged |
| `Parens.RemoveParenthesesEmpty` | abstract_generator/AbstractGenerator.py:59-71 | the empty text normalises to the empty text, so an author line without references gets no superscript |
| `Parens.RemoveParenthesesNoOpen` | abstract_generator/AbstractGenerator.py:59-71 | text without '(' normalises to itself, stripped |
| `Parens.RemoveParenthesesMayLeadWithSeparator` | abstract_generator/AbstractGenerator.py:59-71 | ", x" normalises to ", x", so the result can start with the separator |
| `Parens.SuperSplitRoundTrip` | abstract_generator/AbstractGenerator.py:23 | the pieces of `re.split(r'(\(\w+\))', s)`, with groups kept in their parentheses, concatenate back to `s` |
| `Names.MatchAuthor` | abstract_generator/AbstractGenerator.py:21 | `exreg4author.match` returns None exactly when no split of the line fits the pattern's language; otherwise it returns the groups of the fit with the longest first group |
| `Names.MatchAffiliation` | abstract_generator/AbstractGenerator.py:22 | `exreg4affiliation.match` behaves the same way for the affiliation pattern |
| `Names.ParseAuthor` | abstract_generator/AbstractGenerator.py:220-224 | an author line parses exactly when the pattern matches; the name contains no ')', and both name and references carry no surrounding whitespace |
| `Names.ParseAffiliation` | abstract_generator/AbstractGenerator.py:237-241 | an affiliation line parses exactly when the pattern matches; references and name carry no surrounding whitespace |
| `Names.DisplayName` | abstract_generator/AbstractGenerator.py:223 | the displayed name is the name with every space replaced by a no-break space, and nothing else changes |
| `Names.AuthorWithoutReferences` | abstract_generator/AbstractGenerator.py:21 | a line without ')' is all name, with no references |
| `Names.JaneDoeExample` | abstract_generator/AbstractGenerator.py:220-224 | "Jane Doe (1)(2)" gives the name "Jane Doe", displayed with a no-break space, and the references "1, 2" |
| `Names.DeptExample` | abstract_generator/AbstractGenerator.py:237-241 | "(1)Dept of X" gives the reference "1" and the name "Dept of X" |
| `Markup.TagEndShortest` | abstract_generator/AbstractGenerator.py:28 | the lazy match of `\<.*?\>.*?\</.*?\>` at a position is the shortest span in the pattern's language that starts there |
| `Markup.TagSplitRoundTrip` | abstract_generator/AbstractGenerator.py:98 | the pieces of `exreg4tags.split(body)` concatenate back to the body |
| `Markup.TagSplitShape` | abstract_generator/AbstractGenerator.py:98 | the split alternates between text without a tag span and exactly one lazy match |
| `Markup.TagSplitOfNoTag` | abstract_generator/AbstractGenerator.py:98 | a body without a tag span is not split |
| `Markup.StripTags` | abstract_generator/AbstractGenerator.py:29 | `exreg4tag_strip.sub('', s)` leaves no `<…>` and never lengthens the text |
| `Markup.StripTagsOfTagFree` | abstract_generator/AbstractGenerator.py:29 | text already free of `<…>` passes unchanged |
| `Markup.StripTagsIdempotent` | abstract_generator/AbstractGenerator.py:115 | stripping twice strips nothing more |
| `Markup.StripTagsPlainPrefix` | abstract_generator/AbstractGenerator.py:29 | text before the first '<' is kept as it is |
| `Markup.StripTagsDropsTag` | abstract_generator/AbstractGenerator.py:29 | a leading `<x>` with no '>' inside is removed entirely, the shortest match of `<[^>]*?>` |
| `Markup.OpensAndClosesIff` | abstract_generator/AbstractGenerator.py:105-110 | a piece counts as italic, superscript or subscript exactly when it starts with the opening tag and the closing tag follows later on the same line, as `exreg4italic.match` and its siblings decide |
| `Markup.Tokenize` | abstract_generator/AbstractGenerator.py:96-121 | one run per piece of the split, none bold; each run is italic, superscript or subscript exactly when its raw piece starts with `<i>`, `<sup>` or `<sub>` and the closing tag follows on the same line; without debug no run holds a tag |
| `Markup.TokenizeNoTag` | abstract_generator/AbstractGenerator.py:96-121 | a body without a tag span gives one unformatted run whose text is the body with `<…>` stripped (the raw body in debug mode), and exactly the body when it holds no '<' |
| `Markup.TokenizeStripped` | abstract_generator/AbstractGenerator.py:112-115 | each run's text is its piece with tags stripped, or the raw piece in debug mode |
| `Markup.TokenizeDebugRoundTrip` | abstract_generator/AbstractGenerator.py:112-113 | in debug mode the runs read as the body |
| `Markup.TokenizePlainPieces` | abstract_generator/AbstractGenerator.py:100-110 | the text between tag spans is never italic, superscript or subscript |
| `Markup.TokenizeExample` | abstract_generator/AbstractGenerator.py:96-121 | "plain <i>ital</i> more" gives "plain ", an italic "ital" and " more" |
| `ImageSize.SelectDpi` | abstract_generator/AbstractGenerator.py:79-83 | `jfif_density` wins over `dpi`, which wins over the default 72 |
| `ImageSize.PhysicalLength` | abstract_generator/AbstractGenerator.py:73-75 | the length in cm times the resolution equals the pixels times 2.54 |
| `ImageSize.Clamp` | abstract_generator/AbstractGenerator.py:86-91 | the clamped size fits 14 by 8.5 cm and keeps the aspect ratio; a size that already fits is unchanged |
| `ImageSize.ClampIsUniformScale` | abstract_generator/AbstractGenerator.py:86-91 | the two sequential clamps are one uniform scaling, by a factor in (0, 1] |
| `ImageSize.ScaleFactorLargest` | abstract_generator/AbstractGenerator.py:86-91 | no larger factor up to 1 fits within both caps |
| `ImageSize.PreferredSizeExample` | abstract_generator/AbstractGenerator.py:77-94 | a 2800 x 850 pixel image at the default 72 dpi is clamped to 14 cm by 4.25 cm |
| `ImageSize.PreferredSize` | abstract_generator/AbstractGenerator.py:77-94 | the preferred size fits the caps and keeps the ratio of the physical size; there is none exactly when a resolution is zero (a division by zero in the generator) |
| `Aini.ParseAuthors` | abstract_generator/AbstractGenerator.py:217-224 | all author lines parse in order, or the result names a line the author pattern rejects, the first such line |
| `Aini.ParseAffiliations` | abstract_generator/AbstractGenerator.py:234-241 | all affiliation lines parse in order, or the result names a line the affiliation pattern rejects, the first such line |
| `Aini.ParseAuthorsFirstFault` | abstract_generator/AbstractGenerator.py:219-220 | the failure names the first line that does not match |
| `Aini.AuthorRunsText` | abstract_generator/AbstractGenerator.py:219-230 | the author runs read as the author labels (name and superscript references) joined with ", " |
| `Aini.AffiliationRunsText` | abstract_generator/AbstractGenerator.py:236-246 | the affiliation runs read as the affiliation labels joined with ", " |
| `Aini.BylineText` | abstract_generator/AbstractGenerator.py:213-247 | the byline reads as the authors, a newline, the affiliations, a newline and the e-mail address |
| `Aini.CitationAuthors` | abstract_generator/AbstractGenerator.py:342-349 | the `author_tmp` loop computes the stripped author names joined with ", " |
| `Aini.CitationText` | abstract_generator/AbstractGenerator.py:338-354 | the citation reads "Citation: ", the names, " (2016). ", the one-line title, the series text, the programme number and the DOI |
| `Aini.PathJoin` | abstract_generator/AbstractGenerator.py:271 | an absolute file name replaces the directory; otherwise the name follows the directory, with exactly one '/' between them when the directory is non-empty; an empty directory gives the bare name |
| `Aini.PathJoinOneSeparator` | abstract_generator/AbstractGenerator.py:271 | for a non-empty directory and a relative name, what precedes the name is the directory ending in a single added or existing '/' |
| `Aini.FigureBlockOkIff` | abstract_generator/AbstractGenerator.py:268-288 | the figure block succeeds exactly when the column exists and, if its cell is not empty, the joined path names an image with a non-zero resolution and the caption column exists |
| `Aini.FigureParagraphs` | abstract_generator/AbstractGenerator.py:268-288 | the figure is present exactly when the file name cell is not empty, as the picture at its preferred width followed by the caption lines |
| `Aini.AbstractParagraphs` | abstract_generator/AbstractGenerator.py:255-264 | one paragraph per non-blank abstract line, in order, every one but the first indented |
| `Aini.LabelledText` | abstract_generator/AbstractGenerator.py:310-335 | list cells give one paragraph per item, the first led by a bold heading |
| `Aini.ReferencesParagraphs` | abstract_generator/AbstractGenerator.py:293-306 | the bold "References:" header appears once, first, exactly when there are references |
| `Aini.ParagraphCount` | abstract_generator/AbstractGenerator.py:188-354 | a record takes 4 paragraphs plus one per abstract, acknowledgement and funding line, the picture and one per caption line when there is a figure, and one per reference plus the header when there are references |
| `Aini.AiniLayout` | abstract_generator/AbstractGenerator.py:188-354 | a record is written exactly when its header and body columns are readable; the paragraphs are those blocks in order, and a header fault is reported before any body fault |
| `Aini.AuthorFaultFirst` | abstract_generator/AbstractGenerator.py:217-220 | a record whose first non-matching author line is line k fails with that line, whatever the later columns hold |
| `Jscpb.TitleRunsKeepMarkup` | abstract_generator/AbstractGenerator.py:162-165 | making the title bold keeps the tokenizer's texts and italic, superscript and subscript flags |
| `Jscpb.AuthorRuns` | abstract_generator/AbstractGenerator.py:168-174 | one run per piece of the group split, none bold, italic or subscript |
| `Jscpb.AuthorRunsRoundTrip` | abstract_generator/AbstractGenerator.py:168-174 | the author runs read as the authors cell, character for character |
| `Jscpb.AuthorRunsSuperscript` | abstract_generator/AbstractGenerator.py:170-174 | exactly the odd pieces are superscript, and each is a word in parentheses |
| `Jscpb.AffiliationParagraph` | abstract_generator/AbstractGenerator.py:177-179 | an affiliations cell gives one italic run when it holds text; an empty one fails because there is no run to format |
| `Jscpb.JscpbLayout` | abstract_generator/AbstractGenerator.py:157-186 | a record is written exactly when all five columns hold text and the affiliations are non-empty; the result is the title, authors, affiliations, abstract and keywords paragraphs |
| `Jscpb.EmptyAffiliationsFail` | abstract_generator/AbstractGenerator.py:176-178 | an empty affiliations cell fails the record, because the paragraph has no run for `p.runs[0]` |
| `Jscpb.KeywordsText` | abstract_generator/AbstractGenerator.py:185-186 | the keywords paragraph reads "Keywords: " and the keywords, with only the keywords in italics |
| `Generator.RecordBodyDispatch` | abstract_generator/AbstractGenerator.py:149-152 | the template type "aini2016", and only that, selects the aini layout; any other selects jscpb |
| `Generator.SetPage` | abstract_generator/AbstractGenerator.py:142-148 | the section gets portrait A4 with 20 mm margins and a 15 mm bottom margin, and no other section changes |
| `Generator.AddSection` | abstract_generator/AbstractGenerator.py:141 | a new-page section is added after the existing ones, which are unchanged |
| `Generator.WrittenShape` | abstract_generator/AbstractGenerator.py:136-153 | the first section becomes A4 and the first record's paragraphs go to the end of the last starting section; every later record gets its own new-page A4 section; the other starting sections are kept |
| `Generator.WriteRecords` | abstract_generator/AbstractGenerator.py:136-153 | the loop succeeds exactly when every record renders, and then yields the closed-form document; otherwise it fails with the error of the first record that does not render |
| `Generator.WriteDocx` | abstract_generator/AbstractGenerator.py:128-155 | `write_docx` on a table succeeds exactly when every row is writable in the chosen layout and yields the document of their pages; otherwise it fails with the first failing row's error |

## Left out

- Reading the spreadsheet (`read_xlsx`, via pandas), saving the document,
  opening a template, `print`, and the `__main__` block are I/O. Records are
  a parameter of `Generator.WriteDocx`, and the starting document is one too.
- `_insert_image` (lines 34-45) is not called by the generator and is not
  part of this model.
- Opening an image with PIL is I/O. The images that exist are given as a
  map from path to what PIL reports: the pixel size and the `dpi` and
  `jfif_density` entries.
- `Cells.Cell`: numeric cells (a number in a column) are not represented; a
  cell is text or NaN. On a numeric cell the generator crashes at `.strip()`
  (lines 51, 207, 250, 353), so this leaves out only further failure paths.
- `Parens.RemoveParentheses`: `\w` is modelled as ASCII letters, digits and
  '_'. Python 3 matches Unicode word characters, so "(é)" becomes "é" in the
  generator, while the model keeps "(é)". The same holds for
  `Parens.GroupSplit` and for every lemma about them.
- `Jscpb.AuthorRuns`: for the same reason the superscript split uses ASCII
  `\w`. In "Tarō (東大)" the generator makes "(東大)" superscript, while the
  model leaves it plain.
- `Aini.FigureBlock`: the image map stands only for files that both PIL and
  python-docx can read. `doc.add_picture` (line 273) raises on formats that
  PIL opens but python-docx does not, such as WebP; the model places such a
  picture instead of failing.
- `Aini.PathJoin`: `os.path.join` is modelled for POSIX paths only, without
  Windows drive letters or backslashes.
- `Generator.AddSection`: python-docx's `add_section` also adds a paragraph
  that carries the previous section's properties. The model keeps only the
  sections and their paragraphs, so that paragraph is omitted.
- Fonts, font sizes, spacing, alignment and the `doc.styles['Normal']` font
  change (lines 192-194) are left out. They decide nothing about the text or
  the structure. The first-line indent of the abstract is kept.
- `ImageSize.PreferredSize`: exact `real` arithmetic stands in for Python's
  floating point. The truncation to whole EMUs in `docx.shared.Cm()`
  (line 94) is not modelled.
- `Docs.Run`: the bold, italic, superscript and subscript flags are `bool`.
  python-docx tells an unset flag (None, inherited from the paragraph
  style) apart from an explicit False. `_apply_it_sup_sub` sets False
  explicitly (lines 117-119), while the aini runs leave italic and
  superscript unset. The model shows both as false.
- The 12 pt font size of the jscpb title runs (line 164) is left out; their
  bold weight is kept.

=== FILE: aini.dfy ===
/** The "aini2016" layout (`_write_doc_aini2016`): title, a byline holding
    the authors, their affiliations and the e-mail address, the DOI, the
    abstract, an optional figure with its caption, references,
    acknowledgement, funding and the citation line. */
module Aini {
  import opened Wrappers
  import opened PyText
  import opened Cells
  import opened Names
  import opened Docs
  import opened Records
  import opened ImageSize

  // Column names of the input table.
  const TitleField: string := "Title"
  const NameField: string := "Name"
  const AffiliationField: string := "Affiliation"
  const EmailField: string := "e-mail"
  const DoiField: string := "DOI"
  const AbstractField: string := "Abstract"
  const FigureField: string := "Figure file Name"
  const CommentField: string := "Figure comment"
  const ReferencesField: string := "References"
  const AcknowledgementField: string := "Acknowledgement"
  const FundingField: string := "Funding"
  const ProgramField: string := "Program No. Long"

  // Fixed texts of the layout.
  const CommaSpace: string := ", "
  const NewLine: string := "\n"
  const DoiLabel: string := "DOI:"
  const FigureLabel: string := "Figure: "
  const ReferencesLabel: string := "References:"
  /** Spelled as the generator spells it. */
  const AcknowledgementLabel: string := "Ackknowledgement: "
  const FundingLabel: string := "Funding: "
  const CitationLabel: string := "Citation: "
  const YearText: string := " (2016). "
  const PeriodSpace: string := ". "
  const SeriesText: string := "Advances in Neuroinformatics IV. "
  const ProgramText: string := "AINI 2016 and INCF Nodes Workshop Abstract: "
  const DoiSuffix: string := ". DOI:"

  /** The index of the first `None`, or the length when there is none. */
  function FirstNone<T>(xs: seq<Option<T>>): (i: nat)
    ensures i <= |xs|
    ensures i < |xs| ==> xs[i].None?
    ensures forall k :: 0 <= k < i ==> xs[k].Some?
  {
    if xs == [] || xs[0].None? then 0 else 1 + FirstNone(xs[1..])
  }

  /** Every line parsed in order, or the first line `parse` rejects. */
  function ParseLines<T>(lines: seq<string>, parse: string -> Option<T>): (r: Result<seq<T>, string>)
    ensures r.Ok? <==> forall k :: 0 <= k < |lines| ==> parse(lines[k]).Some?
    ensures r.Ok? ==> |r.value| == |lines| && forall k :: 0 <= k < |lines| ==> parse(lines[k]) == Some(r.value[k])
    ensures r.Err? ==> exists k :: && 0 <= k < |lines| && parse(lines[k]).None? && r.error == lines[k]
                                   && forall k' :: 0 <= k' < k ==> parse(lines[k']).Some?
  {
    var parsed := seq(|lines|, k requires 0 <= k < |lines| => parse(lines[k]));
    assert forall k :: 0 <= k < |lines| ==> parsed[k] == parse(lines[k]);
    var i := FirstNone(parsed);
    if i < |lines| then Err(lines[i])
    else Ok(seq(|lines|, k requires 0 <= k < |lines| => parsed[k].value))
  }

  /** The author lines in order; the first line the author pattern rejects
      ends the record with that line. */
  function ParseAuthors(lines: seq<string>): (r: Result<seq<Author>, Error>)
    ensures r.Ok? <==> forall k :: 0 <= k < |lines| ==> ParseAuthor(lines[k]).Some?
    ensures r.Ok? ==> |r.value| == |lines| && forall k :: 0 <= k < |lines| ==> ParseAuthor(lines[k]) == Some(r.value[k])
    ensures r.Err? ==> exists k :: && 0 <= k < |lines| && ParseAuthor(lines[k]).None?
                                   && r.error == AuthorNoMatch(lines[k])
                                   && forall k' :: 0 <= k' < k ==> ParseAuthor(lines[k']).Some?
  {
    match ParseLines(lines, ParseAuthor)
    case Ok(authors) => Ok(authors)
    case Err(line) => Err(AuthorNoMatch(line))
  }

  /** The affiliation lines in order; the first line the affiliation
      pattern rejects ends the record with that line. */
  function ParseAffiliations(lines: seq<string>): (r: Result<seq<Affiliation>, Error>)
    ensures r.Ok? <==> forall k :: 0 <= k < |lines| ==> ParseAffiliation(lines[k]).Some?
    ensures r.Ok? ==> |r.value| == |lines| && forall k :: 0 <= k < |lines| ==> ParseAffiliation(lines[k]) == Some(r.value[k])
    ensures r.Err? ==> exists k :: && 0 <= k < |lines| && ParseAffiliation(lines[k]).None?
                                   && r.error == AffiliationNoMatch(lines[k])
                                   && forall k' :: 0 <= k' < k ==> ParseAffiliation(lines[k']).Some?
  {
    match ParseLines(lines, ParseAffiliation)
    case Ok(affiliations) => Ok(affiliations)
    case Err(line) => Err(AffiliationNoMatch(line))
  }

  /** The runs one author adds to the byline: a bold ", " unless it is the
      first, the bold display name, and the bold superscript reference
      numbers after a no-break space when there are any. */
  function AuthorPiece(a: Author, first: bool): seq<Run> {
    (if first then [] else [Bold(CommaSpace)])
    + [Bold(DisplayName(a))]
    + (if a.refs != [] then [Run([NoBreakSpace] + a.refs, true, false, true, false)] else [])
  }

  /** The author runs of the byline, author after author. */
  function AuthorRuns(authors: seq<Author>): (r: seq<Run>)
    ensures forall k :: 0 <= k < |r| ==> r[k].bold && !r[k].italic && !r[k].subscript
    decreases |authors|
  {
    if authors == [] then []
    else AuthorRuns(authors[..|authors| - 1]) + AuthorPiece(authors[|authors| - 1], |authors| == 1)
  }

  /** How one author reads in the byline. */
  function AuthorLabel(a: Author): string {
    DisplayName(a) + (if a.refs != [] then [NoBreakSpace] + a.refs else [])
  }

  function AuthorLabels(authors: seq<Author>): (r: seq<string>)
    ensures |r| == |authors| && forall k :: 0 <= k < |r| ==> r[k] == AuthorLabel(authors[k])
  {
    seq(|authors|, k requires 0 <= k < |authors| => AuthorLabel(authors[k]))
  }

  /** One author's runs read as ", " (unless first) and the label. */
  lemma AuthorPieceText(a: Author, first: bool)
    ensures TextOf(AuthorPiece(a, first)) == (if first then [] else CommaSpace) + AuthorLabel(a)
  {
    var sep := if first then [] else [Bold(CommaSpace)];
    var sup := if a.refs != [] then [Run([NoBreakSpace] + a.refs, true, false, true, false)] else [];
    TextOfAppend(sep + [Bold(DisplayName(a))], sup);
    TextOfAppend(sep, [Bold(DisplayName(a))]);
    TextOfOne(Bold(DisplayName(a)));
    if a.refs != [] {
      TextOfOne(sup[0]);
    }
    if !first {
      TextOfOne(Bold(CommaSpace));
    }
  }

  /** The author runs read as the authors' labels joined with ", ". */
  lemma {:induction false} AuthorRunsText(authors: seq<Author>)
    ensures TextOf(AuthorRuns(authors)) == Join(AuthorLabels(authors), CommaSpace)
    decreases |authors|
  {
    if authors != [] {
      var n := |authors|;
      var init, a := authors[..n - 1], authors[n - 1];
      AuthorRunsText(init);
      TextOfAppend(AuthorRuns(init), AuthorPiece(a, n == 1));
      AuthorPieceText(a, n == 1);
      assert AuthorLabels(authors) == AuthorLabels(init) + [AuthorLabel(a)];
      if n > 1 {
        Parens.JoinSnoc(AuthorLabels(init), AuthorLabel(a), CommaSpace);
      } else {
        assert AuthorLabels(authors) == [AuthorLabel(a)];
      }
    }
  }

  /** The runs one affiliation adds: a plain ", " unless it is the first,
      the superscript reference numbers followed by a no-break space when
      there are any, and the plain name. */
  function AffiliationPiece(a: Affiliation, first: bool): seq<Run> {
    (if first then [] else [Plain(CommaSpace)])
    + (if a.refs != [] then [Run(a.refs + [NoBreakSpace], false, false, true, false)] else [])
    + [Plain(a.name)]
  }

  /** The affiliation runs of the byline, affiliation after affiliation. */
  function AffiliationRuns(affiliations: seq<Affiliation>): (r: seq<Run>)
    ensures forall k :: 0 <= k < |r| ==> !r[k].bold && !r[k].italic && !r[k].subscript
    decreases |affiliations|
  {
    if affiliations == [] then []
    else AffiliationRuns(affiliations[..|affiliations| - 1])
         + AffiliationPiece(affiliations[|affiliations| - 1], |affiliations| == 1)
  }

  /** How one affiliation reads in the byline. */
  function AffiliationLabel(a: Affiliation): string {
    (if a.refs != [] then a.refs + [NoBreakSpace] else []) + a.name
  }

  function AffiliationLabels(affiliations: seq<Affiliation>): (r: seq<string>)
    ensures |r| == |affiliations| && forall k :: 0 <= k < |r| ==> r[k] == AffiliationLabel(affiliations[k])
  {
    seq(|affiliations|, k requires 0 <= k < |affiliations| => AffiliationLabel(affiliations[k]))
  }

  /** One affiliation's runs read as ", " (unless first) and the label. */
  lemma AffiliationPieceText(a: Affiliation, first: bool)
    ensures TextOf(AffiliationPiece(a, first)) == (if first then [] else CommaSpace) + AffiliationLabel(a)
  {
    var sep := if first then [] else [Plain(CommaSpace)];
    var sup := if a.refs != [] then [Run(a.refs + [NoBreakSpace], false, false, true, false)] else [];
    TextOfAppend(sep + sup, [Plain(a.name)]);
    TextOfAppend(sep, sup);
    TextOfOne(Plain(a.name));
    if a.refs != [] {
      TextOfOne(sup[0]);
    }
    if !first {
      TextOfOne(Plain(CommaSpace));
    }
  }

  /** The affiliation runs read as the labels joined with ", ". */
  lemma {:induction false} AffiliationRunsText(affiliations: seq<Affiliation>)
    ensures TextOf(AffiliationRuns(affiliations)) == Join(AffiliationLabels(affiliations), CommaSpace)
    decreases |affiliations|
  {
    if affiliations != [] {
      var n := |affiliations|;
      var init, a := affiliations[..n - 1], affiliations[n - 1];
      AffiliationRunsText(init);
      TextOfAppend(AffiliationRuns(init), AffiliationPiece(a, n == 1));
      AffiliationPieceText(a, n == 1);
      assert AffiliationLabels(affiliations) == AffiliationLabels(init) + [AffiliationLabel(a)];
      if n > 1 {
        Parens.JoinSnoc(AffiliationLabels(init), AffiliationLabel(a), CommaSpace);
      } else {
        assert AffiliationLabels(affiliations) == [AffiliationLabel(a)];
      }
    }
  }

  /** The second paragraph: authors, a line break, affiliations, a line
      break and the e-mail address, all in one paragraph. */
  function Byline(authors: seq<Author>, affiliations: seq<Affiliation>, email: string): seq<Run> {
    AuthorRuns(authors) + [Plain(NewLine)] + AffiliationRuns(affiliations) + [Plain(NewLine + email)]
  }

  /** The byline reads: the author labels joined with ", ", a newline, the
      affiliation labels joined with ", ", a newline, the e-mail address. */
  lemma BylineText(authors: seq<Author>, affiliations: seq<Affiliation>, email: string)
    ensures TextOf(Byline(authors, affiliations, email))
            == Join(AuthorLabels(authors), CommaSpace) + NewLine
               + Join(AffiliationLabels(affiliations), CommaSpace) + NewLine + email
  {
    var a, b := AuthorRuns(authors), AffiliationRuns(affiliations);
    AuthorRunsText(authors);
    AffiliationRunsText(affiliations);
    TextOfAppend(a + [Plain(NewLine)] + b, [Plain(NewLine + email)]);
    TextOfAppend(a + [Plain(NewLine)], b);
    TextOfAppend(a, [Plain(NewLine)]);
    TextOfOne(Plain(NewLine));
    TextOfOne(Plain(NewLine + email));
  }

  /** The cited names: each author's stripped first group. */
  function AuthorNames(authors: seq<Author>): (r: seq<string>)
    ensures |r| == |authors| && forall k :: 0 <= k < |r| ==> r[k] == authors[k].name
  {
    seq(|authors|, k requires 0 <= k < |authors| => authors[k].name)
  }

  /** The `author_tmp` loop of the citation: ", " before every name but the
      first, which is exactly the names joined with ", ". */
  method CitationAuthors(authors: seq<Author>) returns (tmp: string)
    ensures tmp == Join(AuthorNames(authors), CommaSpace)
  {
    tmp := "";
    var first := true;
    var k := 0;
    while k < |authors|
      invariant 0 <= k <= |authors|
      invariant first <==> k == 0
      invariant tmp == Join(AuthorNames(authors[..k]), CommaSpace)
    {
      assert AuthorNames(authors[..k + 1]) == AuthorNames(authors[..k]) + [authors[k].name];
      if !first {
        Parens.JoinSnoc(AuthorNames(authors[..k]), authors[k].name, CommaSpace);
        tmp := tmp + CommaSpace;
      } else {
        assert AuthorNames(authors[..k + 1]) == [authors[k].name];
      }
      tmp := tmp + authors[k].name;
      first := false;
      k := k + 1;
    }
    assert authors[..k] == authors;
  }

  /** The last paragraph: "Citation: ", the cited names, the year and the
      title on one line, the series in italics, the programme number and
      the DOI. */
  function Citation(authors: seq<Author>, title: string, program: string, doi: string): Paragraph {
    Para([ Bold(CitationLabel),
           Plain(Join(AuthorNames(authors), CommaSpace) + YearText + ReplaceChar(Strip(title), '\n', ' ') + PeriodSpace),
           Italic(SeriesText),
           Plain(ProgramText + Strip(program) + DoiSuffix + Strip(doi)) ], false)
  }

  /** `os.path.join(directory, name)` on POSIX: an absolute name replaces
      the directory, otherwise a "/" is put between them unless the
      directory is empty or already ends with one. */
  function PathJoin(directory: string, name: string): (r: string)
    ensures |name| > 0 && name[0] == '/' ==> r == name
    ensures !(|name| > 0 && name[0] == '/') ==>
              && |directory| + |name| <= |r|
              && r[..|directory|] == directory
              && r[|r| - |name|..] == name
              && (r == directory + name <==> directory == [] || directory[|directory| - 1] == '/')
  {
    if |name| > 0 && name[0] == '/' then name
    else if directory == [] || directory[|directory| - 1] == '/' then directory + name
    else directory + "/" + name
  }

  /** Between a non-empty directory and a relative name there is exactly
      one separator: the joined path, less the name, ends with "/" and is
      the directory or the directory plus "/". */
  lemma PathJoinOneSeparator(directory: string, name: string)
    requires directory != [] && !(|name| > 0 && name[0] == '/')
    ensures var r := PathJoin(directory, name);
            var head := r[..|r| - |name|];
            && head != [] && head[|head| - 1] == '/'
            && (head == directory || head == directory + "/")
  {
    var r := PathJoin(directory, name);
    if directory[|directory| - 1] == '/' {
      assert r[..|r| - |name|] == directory;
    } else {
      assert r[..|r| - |name|] == directory + "/";
    }
  }

  /** Paragraphs of a list cell whose first one starts with a bold label:
      the figure caption, the acknowledgement and the funding. */
  function Labelled(heading: string, items: seq<string>): seq<Paragraph> {
    seq(|items|, k requires 0 <= k < |items| =>
      Para((if k == 0 then [Bold(heading)] else []) + [Plain(items[k])], false))
  }

  /** The abstract: one paragraph per item, every one after the first
      indented. */
  function AbstractBlock(items: seq<string>): seq<Paragraph> {
    seq(|items|, k requires 0 <= k < |items| => Para([Plain(items[k])], k > 0))
  }

  /** The references: a bold header paragraph when there is any, then one
      paragraph per item. */
  function ReferencesBlock(items: seq<string>): seq<Paragraph> {
    if items == [] then []
    else [ReferencesHeader] + seq(|items|, k requires 0 <= k < |items| => Para([Plain(items[k])], false))
  }

  /** The figure: nothing when the file name cell is empty; otherwise the
      picture at its preferred width and the caption paragraphs. The image
      files that exist are given as a map from path to what the image
      library reports about them. */
  function FigureBlock(rec: Record, imageDir: string, images: map<string, ImageInfo>): (r: Result<seq<Paragraph>, Error>)
    ensures r.Ok? && FigureField in rec && IsEmpty(rec[FigureField]) ==> r.value == []
  {
    var cell :- Get(rec, FigureField);
    if IsEmpty(cell) then Ok([])
    else
      var path := PathJoin(imageDir, cell.text);
      if path !in images then Err(ImageMissing(path))
      else
        var size := PreferredSize(images[path]);
        if size.None? then Err(ZeroResolution(path))
        else
          var comments :- GetLines(rec, CommentField);
          Ok([Picture(path, size.value.0)] + Labelled(FigureLabel, comments))
  }

  /** The columns read before the abstract: title, authors, affiliations,
      e-mail address and DOI. */
  datatype Header = Header(
    title: string, authors: seq<Author>, affiliations: seq<Affiliation>,
    email: string, doi: string)

  /** The header columns exist, the text ones hold text and every author
      and affiliation line matches its pattern. */
  predicate HeaderWritable(rec: Record) {
    && TitleField in rec && rec[TitleField].Str?
    && NameField in rec && AuthorsMatch(ToArray(rec[NameField], '\n'))
    && AffiliationField in rec && AffiliationsMatch(ToArray(rec[AffiliationField], '\n'))
    && EmailField in rec && rec[EmailField].Str?
    && DoiField in rec && rec[DoiField].Str?
  }

  /** Every author line matches the author pattern. */
  predicate AuthorsMatch(lines: seq<string>) {
    forall k :: 0 <= k < |lines| ==> ParseAuthor(lines[k]).Some?
  }

  /** Every affiliation line matches the affiliation pattern. */
  predicate AffiliationsMatch(lines: seq<string>) {
    forall k :: 0 <= k < |lines| ==> ParseAffiliation(lines[k]).Some?
  }

  /** The header columns, read and parsed in the generator's order. */
  function ReadHeader(rec: Record): (r: Result<Header, Error>)
    ensures r.Ok? <==> HeaderWritable(rec)
    ensures r.Ok? ==> && r.value.title == rec[TitleField].text
                      && ParseAuthors(ToArray(rec[NameField], '\n')) == Ok(r.value.authors)
                      && ParseAffiliations(ToArray(rec[AffiliationField], '\n')) == Ok(r.value.affiliations)
                      && r.value.email == rec[EmailField].text
                      && r.value.doi == rec[DoiField].text
  {
    var title :- GetText(rec, TitleField);
    var nameLines :- GetLines(rec, NameField);
    var authors :- ParseAuthors(nameLines);
    var affiliationLines :- GetLines(rec, AffiliationField);
    var affiliations :- ParseAffiliations(affiliationLines);
    var email :- GetText(rec, EmailField);
    var doi :- GetText(rec, DoiField);
    Ok(Header(title, authors, affiliations, email, doi))
  }

  /** The columns read from the abstract on: the list cells, the figure
      block and the programme number. */
  datatype Body = Body(
    abstractItems: seq<string>, figure: seq<Paragraph>, references: seq<string>,
    acknowledgement: seq<string>, funding: seq<string>, program: string)

  /** The figure can be placed: the file exists and reports no zero
      resolution, and the caption column is there. */
  predicate FigureWritable(rec: Record, imageDir: string, images: map<string, ImageInfo>)
    requires FigureField in rec && !IsEmpty(rec[FigureField])
  {
    var path := PathJoin(imageDir, rec[FigureField].text);
    && path in images
    && PreferredSize(images[path]).Some?
    && CommentField in rec
  }

  /** The body columns exist, the programme number is text, and a named
      figure can be placed. */
  predicate BodyWritable(rec: Record, imageDir: string, images: map<string, ImageInfo>) {
    && AbstractField in rec
    && FigureField in rec
    && (!IsEmpty(rec[FigureField]) ==> FigureWritable(rec, imageDir, images))
    && ReferencesField in rec && AcknowledgementField in rec && FundingField in rec
    && ProgramField in rec && rec[ProgramField].Str?
  }

  /** The body columns, read in the generator's order. */
  function ReadBody(rec: Record, imageDir: string, images: map<string, ImageInfo>): (r: Result<Body, Error>)
    ensures r.Ok? <==> BodyWritable(rec, imageDir, images)
    ensures r.Ok? ==> && r.value.abstractItems == ToArray(rec[AbstractField], '\n')
                      && FigureBlock(rec, imageDir, images) == Ok(r.value.figure)
                      && r.value.references == ToArray(rec[ReferencesField], '\n')
                      && r.value.acknowledgement == ToArray(rec[AcknowledgementField], '\n')
                      && r.value.funding == ToArray(rec[FundingField], '\n')
                      && r.value.program == rec[ProgramField].text
  {
    var abstractItems :- GetLines(rec, AbstractField);
    var figure :- FigureBlock(rec, imageDir, images);
    var references :- GetLines(rec, ReferencesField);
    var acknowledgement :- GetLines(rec, AcknowledgementField);
    var funding :- GetLines(rec, FundingField);
    var program :- GetText(rec, ProgramField);
    Ok(Body(abstractItems, figure, references, acknowledgement, funding, program))
  }

  /** What one record contributes, block by block. */
  datatype Blocks = Blocks(
    title: Paragraph, byline: Paragraph, doi: Paragraph,
    abstractBody: seq<Paragraph>, figure: seq<Paragraph>, references: seq<Paragraph>,
    acknowledgement: seq<Paragraph>, funding: seq<Paragraph>, citation: Paragraph)

  /** The blocks in document order. */
  function Paragraphs(b: Blocks): seq<Paragraph> {
    [b.title, b.byline, b.doi] + b.abstractBody + b.figure + b.references + b.acknowledgement + b.funding + [b.citation]
  }

  /** The paragraphs the columns turn into. */
  function Assemble(h: Header, b: Body): Blocks {
    Blocks(
      Para([Run(Strip(h.title), true, true, false, false)], false),
      Para(Byline(h.authors, h.affiliations, h.email), false),
      Para([Plain(DoiLabel + Strip(h.doi))], false),
      AbstractBlock(b.abstractItems),
      b.figure,
      ReferencesBlock(b.references),
      Labelled(AcknowledgementLabel, b.acknowledgement),
      Labelled(FundingLabel, b.funding),
      Citation(h.authors, h.title, b.program, h.doi))
  }

  /** `_write_doc_aini2016` for one record: the columns are read in the
      generator's order, so a record with several faults reports the first
      one the generator would hit. */
  function AiniLayout(rec: Record, imageDir: string, images: map<string, ImageInfo>): (r: Result<Blocks, Error>)
    ensures r.Ok? <==> HeaderWritable(rec) && BodyWritable(rec, imageDir, images)
    ensures r.Ok? ==> r.value == Assemble(ReadHeader(rec).value, ReadBody(rec, imageDir, images).value)
    ensures !HeaderWritable(rec) ==> r == Err(ReadHeader(rec).error)
  {
    var h :- ReadHeader(rec);
    var b :- ReadBody(rec, imageDir, images);
    Ok(Assemble(h, b))
  }

  /** The text a paragraph shows; a picture shows none. */
  function ParagraphText(p: Paragraph): string {
    if p.Para? then TextOf(p.runs) else []
  }

  /** The figure block succeeds exactly when the figure column exists and,
      if it names a file, that figure can be placed. */
  lemma FigureBlockOkIff(rec: Record, imageDir: string, images: map<string, ImageInfo>)
    ensures FigureBlock(rec, imageDir, images).Ok?
            <==> FigureField in rec && (!IsEmpty(rec[FigureField]) ==> FigureWritable(rec, imageDir, images))
  {
  }

  /** The abstract: one paragraph per non-blank line of the cell, showing
      that line, indented except for the first. */
  lemma AbstractParagraphs(rec: Record, imageDir: string, images: map<string, ImageInfo>)
    requires AiniLayout(rec, imageDir, images).Ok?
    ensures var body := AiniLayout(rec, imageDir, images).value.abstractBody;
            var items := ToArray(rec[AbstractField], '\n');
            && |body| == |items|
            && forall k :: 0 <= k < |items| ==>
                 body[k].Para? && ParagraphText(body[k]) == items[k] && (body[k].indented <==> k > 0)
  {
    var items := ToArray(rec[AbstractField], '\n');
    assert AiniLayout(rec, imageDir, images).value.abstractBody == AbstractBlock(items);
    forall k | 0 <= k < |items|
      ensures ParagraphText(AbstractBlock(items)[k]) == items[k]
    {
      TextOfOne(Plain(items[k]));
    }
  }

  /** Lines of a list cell, one paragraph each, the first led by a bold
      heading: the paragraphs read as the heading plus the first line,
      then the other lines. */
  lemma LabelledText(heading: string, items: seq<string>)
    ensures |Labelled(heading, items)| == |items|
    ensures forall k :: 0 <= k < |items| ==>
              && ParagraphText(Labelled(heading, items)[k]) == (if k == 0 then heading else []) + items[k]
              && Labelled(heading, items)[k].runs[0] == (if k == 0 then Bold(heading) else Plain(items[k]))
  {
    forall k | 0 <= k < |items|
      ensures ParagraphText(Labelled(heading, items)[k]) == (if k == 0 then heading else []) + items[k]
    {
      TextOfOne(Plain(items[k]));
      if k == 0 {
        TextOfAppend([Bold(heading)], [Plain(items[k])]);
        TextOfOne(Bold(heading));
      } else {
        assert Labelled(heading, items)[k].runs == [Plain(items[k])];
      }
    }
  }

  /** The figure block is present exactly when the file name cell is not
      empty; then it is the picture, at most 14 cm wide, at the joined path,
      followed by one caption paragraph per line of the comment cell, the
      first led by "Figure: ". */
  lemma FigureParagraphs(rec: Record, imageDir: string, images: map<string, ImageInfo>)
    requires AiniLayout(rec, imageDir, images).Ok?
    ensures var fig := AiniLayout(rec, imageDir, images).value.figure;
            (fig != [] <==> !IsEmpty(rec[FigureField]))
    ensures var fig := AiniLayout(rec, imageDir, images).value.figure;
            !IsEmpty(rec[FigureField]) ==>
              var path := PathJoin(imageDir, rec[FigureField].text);
              var comments := ToArray(rec[CommentField], '\n');
              && |fig| == 1 + |comments|
              && fig[0] == Picture(path, PreferredSize(images[path]).value.0)
              && fig[0].width <= MaxWidth
              && fig[1..] == Labelled(FigureLabel, comments)
  {
    var fig := AiniLayout(rec, imageDir, images).value.figure;
    assert FigureBlock(rec, imageDir, images) == Ok(fig);
  }

  /** The header paragraph of the references. */
  const ReferencesHeader: Paragraph := Para([Bold(ReferencesLabel)], false)

  /** The references block: the header first, and only there, when there
      is any line, then one paragraph per line. */
  lemma ReferencesBlockShape(items: seq<string>)
    ensures var refs := ReferencesBlock(items);
            && |refs| == (if items == [] then 0 else |items| + 1)
            && (forall k :: 0 <= k < |refs| ==> (refs[k] == ReferencesHeader <==> k == 0))
            && (forall k :: 0 <= k < |items| ==> refs[k + 1] == Para([Plain(items[k])], false))
  {
    var refs := ReferencesBlock(items);
    forall k | 1 <= k < |refs|
      ensures refs[k] != ReferencesHeader
    {
      assert refs[k].runs[0].bold == false;
    }
  }

  /** The references header appears exactly once, first, when the cell
      has any line, and not at all otherwise; each line follows in its own
      paragraph. */
  lemma ReferencesParagraphs(rec: Record, imageDir: string, images: map<string, ImageInfo>)
    requires AiniLayout(rec, imageDir, images).Ok?
    ensures var refs := AiniLayout(rec, imageDir, images).value.references;
            var items := ToArray(rec[ReferencesField], '\n');
            && |refs| == (if items == [] then 0 else |items| + 1)
            && (forall k :: 0 <= k < |refs| ==> (refs[k] == ReferencesHeader <==> k == 0))
            && (forall k :: 0 <= k < |items| ==> refs[k + 1] == Para([Plain(items[k])], false))
  {
    var items := ToArray(rec[ReferencesField], '\n');
    assert AiniLayout(rec, imageDir, images).value.references == ReferencesBlock(items);
    ReferencesBlockShape(items);
  }

  /** The citation reads "Citation: ", the cited names joined with ", ",
      the year, the title with its line breaks turned into spaces, the
      series and the programme number and DOI. */
  lemma CitationText(authors: seq<Author>, title: string, program: string, doi: string)
    ensures ParagraphText(Citation(authors, title, program, doi))
            == CitationLabel
               + (Join(AuthorNames(authors), CommaSpace) + YearText + ReplaceChar(Strip(title), '\n', ' ') + PeriodSpace)
               + SeriesText
               + (ProgramText + Strip(program) + DoiSuffix + Strip(doi))
    ensures '\n' !in ReplaceChar(Strip(title), '\n', ' ')
  {
    var p := Citation(authors, title, program, doi);
    var names, t := Join(AuthorNames(authors), CommaSpace), ReplaceChar(Strip(title), '\n', ' ');
    var x, y := names + YearText + t + PeriodSpace, ProgramText + Strip(program) + DoiSuffix + Strip(doi);
    assert p.runs == [Bold(CitationLabel), Plain(x), Italic(SeriesText), Plain(y)];
    TextOfFour(Bold(CitationLabel), Plain(x), Italic(SeriesText), Plain(y));
    ReplaceCharRemoves(Strip(title), '\n', ' ');
  }

  /** How many paragraphs a record takes: title, byline, DOI and citation,
      one per abstract line, the picture and one per caption line when there
      is a figure, the header and one per reference when there are any, and
      one per acknowledgement and funding line. */
  lemma ParagraphCount(rec: Record, imageDir: string, images: map<string, ImageInfo>)
    requires AiniLayout(rec, imageDir, images).Ok?
    ensures var n := |Paragraphs(AiniLayout(rec, imageDir, images).value)|;
            var refs := |ToArray(rec[ReferencesField], '\n')|;
            n == 4 + |ToArray(rec[AbstractField], '\n')|
                 + (if IsEmpty(rec[FigureField]) then 0 else 1 + |ToArray(rec[CommentField], '\n')|)
                 + (if refs == 0 then 0 else refs + 1)
                 + |ToArray(rec[AcknowledgementField], '\n')|
                 + |ToArray(rec[FundingField], '\n')|
  {
    FigureParagraphs(rec, imageDir, images);
  }

  /** Faults are reported in reading order: a record whose title is text
      but one of whose author lines does not match fails with the first
      such line, whatever the later columns hold. */
  lemma AuthorFaultFirst(rec: Record, imageDir: string, images: map<string, ImageInfo>, k: nat)
    requires TitleField in rec && rec[TitleField].Str? && NameField in rec
    requires var lines := ToArray(rec[NameField], '\n');
             k < |lines| && ParseAuthor(lines[k]).None?
             && forall k' :: 0 <= k' < k ==> ParseAuthor(lines[k']).Some?
    ensures AiniLayout(rec, imageDir, images) == Err(AuthorNoMatch(ToArray(rec[NameField], '\n')[k]))
  {
    ParseAuthorsFirstFault(ToArray(rec[NameField], '\n'), k);
  }

  /** The author lines fail with the first line that does not match. */
  lemma ParseAuthorsFirstFault(lines: seq<string>, k: nat)
    requires k < |lines| && ParseAuthor(lines[k]).None?
    requires forall k' :: 0 <= k' < k ==> ParseAuthor(lines[k']).Some?
    ensures ParseAuthors(lines) == Err(AuthorNoMatch(lines[k]))
  {
    var r := ParseAuthors(lines);
    var j :| && 0 <= j < |lines| && ParseAuthor(lines[j]).None? && r.error == AuthorNoMatch(lines[j])
             && forall k' :: 0 <= k' < j ==> ParseAuthor(lines[k']).Some?;
    assert j == k;
  }
}

=== FILE: cells.dfy ===
/** Spreadsheet cells as the generator sees them, blank detection
    (`_empty`) and newline-delimited list cells (`_to_array`). */
module Cells {
  import opened PyText

  /** A table cell: text, or the floating-point NaN the table reader puts
      in a blank cell. */
  datatype Cell = Str(text: string) | NaN

  /** `_empty`: NaN, or text whose `strip()` is empty. */
  predicate IsEmpty(c: Cell) {
    c.NaN? || Strip(c.text) == []
  }

  /** A cell is empty exactly when it is NaN or consists only of whitespace;
      in particular any text holding a non-whitespace character is not empty. */
  lemma EmptyIff(c: Cell)
    ensures IsEmpty(c) <==> (c.NaN? || Blank(c.text))
    ensures c.Str? && (exists i :: 0 <= i < |c.text| && !IsSpace(c.text[i])) ==> !IsEmpty(c)
  {
    if c.Str? {
      StripEmptyIffBlank(c.text);
    }
  }

  /** The items of `items` that hold a non-whitespace character, in their
      original order and unchanged. */
  function NonBlank(items: seq<string>): (r: seq<string>)
    ensures |r| <= |items|
    ensures forall x :: x in r <==> x in items && !Blank(x)
  {
    if items == [] then []
    else if Blank(items[0]) then NonBlank(items[1..])
    else [items[0]] + NonBlank(items[1..])
  }

  /** `_to_array(text, delim)`: nothing for an empty cell, otherwise the
      pieces of `text.split(delim)` that are not all whitespace. */
  function ToArray(c: Cell, delim: char): (r: seq<string>)
    ensures IsEmpty(c) ==> r == []
    ensures forall i :: 0 <= i < |r| ==> !Blank(r[i]) && delim !in r[i]
    ensures forall x :: x in r <==> c.Str? && x in Split(c.text, delim) && !Blank(x)
  {
    EmptyIff(c);
    if c.NaN? then []
    else if IsEmpty(c) then
      SplitOfBlank(c.text, delim);
      []
    else NonBlank(Split(c.text, delim))
  }

  /** Every piece of the split of an all-whitespace text is itself blank. */
  lemma {:induction false} SplitOfBlank(s: string, d: char)
    requires Blank(s)
    ensures forall i :: 0 <= i < |Split(s, d)| ==> Blank(Split(s, d)[i])
  {
    if s != [] {
      assert Blank(s[1..]) by {
        assert forall k :: 0 <= k < |s| - 1 ==> s[1..][k] == s[k + 1];
      }
      SplitOfBlank(s[1..], d);
    }
  }

  /** The filter keeps nothing of a list of blank items. */
  lemma {:induction false} NonBlankOfBlanks(items: seq<string>)
    requires forall i :: 0 <= i < |items| ==> Blank(items[i])
    ensures NonBlank(items) == []
  {
    if items != [] {
      NonBlankOfBlanks(items[1..]);
    }
  }

  /** For a text cell the emptiness guard changes nothing: `_to_array` is the
      filtered split whether or not the text is blank. */
  lemma ToArrayOfText(s: string, d: char)
    ensures ToArray(Str(s), d) == NonBlank(Split(s, d))
  {
    if IsEmpty(Str(s)) {
      StripEmptyIffBlank(s);
      SplitOfBlank(s, d);
      NonBlankOfBlanks(Split(s, d));
    }
  }

  /** The filter of a single item: the item itself unless it is blank. */
  lemma NonBlankOne(x: string)
    ensures NonBlank([x]) == if Blank(x) then [] else [x]
  {
    assert [x][1..] == [];
  }

  /** The filter works item by item: filtering a concatenation filters each
      part and keeps the parts in order, so order and repetitions of the kept
      items are those of the input. */
  lemma {:induction false} NonBlankAppend(a: seq<string>, b: seq<string>)
    ensures NonBlank(a + b) == NonBlank(a) + NonBlank(b)
    decreases |a|
  {
    if |a| == 0 {
      assert a + b == b;
    } else {
      NonBlankAppend(a[1..], b);
      NonBlankAppendStep(a, b);
    }
  }

  lemma NonBlankAppendStep(a: seq<string>, b: seq<string>)
    requires |a| > 0 && NonBlank(a[1..] + b) == NonBlank(a[1..]) + NonBlank(b)
    ensures NonBlank(a + b) == NonBlank(a) + NonBlank(b)
  {
    NonBlankFirst(a + b);
    AppendFirst(a, b);
    NonBlankFirst(a);
    ConcatAssoc(KeptLine(a[0]), NonBlank(a[1..]), NonBlank(b));
  }

  /** The line itself, or nothing when it is blank. */
  function KeptLine(x: string): seq<string> {
    if Blank(x) then [] else [x]
  }

  /** `NonBlank` of a non-empty list, by its first line. */
  lemma NonBlankFirst(a: seq<string>)
    requires |a| > 0
    ensures NonBlank(a) == KeptLine(a[0]) + NonBlank(a[1..])
  {
  }

  /** A cell whose text is lines joined with the delimiter (no line holding
      the delimiter) yields exactly its non-blank lines, in order and with
      repetitions. */
  lemma ToArrayOfLines(lines: seq<string>, d: char)
    requires |lines| >= 1
    requires forall i :: 0 <= i < |lines| ==> d !in lines[i]
    ensures ToArray(Str(Join(lines, [d])), d) == NonBlank(lines)
  {
    JoinSplit(lines, d);
    ToArrayOfText(Join(lines, [d]), d);
  }

  /** A concatenation is blank exactly when both parts are. */
  lemma BlankConcat(a: string, b: string)
    ensures Blank(a + b) <==> Blank(a) && Blank(b)
  {
    assert forall k :: 0 <= k < |a| ==> (a + b)[k] == a[k];
    assert forall k :: 0 <= k < |b| ==> (a + b)[|a| + k] == b[k];
  }

  /** Joined with a whitespace separator, pieces give blank text exactly
      when every piece is blank. */
  lemma {:induction false} JoinBlankIff(parts: seq<string>, d: char)
    requires IsSpace(d) && |parts| >= 1
    ensures Blank(Join(parts, [d])) <==> forall i :: 0 <= i < |parts| ==> Blank(parts[i])
  {
    if |parts| > 1 {
      JoinBlankIff(parts[1..], d);
      BlankConcat(parts[0], [d]);
      BlankConcat(parts[0] + [d], Join(parts[1..], [d]));
      assert forall i :: 1 <= i < |parts| ==> parts[i] == parts[1..][i - 1];
    }
  }

  /** With a whitespace delimiter (every call site uses a newline), a cell
      that is not empty yields at least one item. */
  lemma ToArrayNonEmpty(c: Cell, d: char)
    requires IsSpace(d) && !IsEmpty(c)
    ensures |ToArray(c, d)| >= 1
  {
    var pieces := Split(c.text, d);
    SplitJoin(c.text, d);
    EmptyIff(c);
    JoinBlankIff(pieces, d);
    var i :| 0 <= i < |pieces| && !Blank(pieces[i]);
    assert pieces[i] in ToArray(c, d);
  }
}

=== FILE: docs.dfy ===
/** The document the generator builds, as plain data: sections holding
    paragraphs holding runs. Only the attributes the layouts decide on are
    kept (bold, italic, superscript, subscript, the first-line indent, the
    picture width and the page geometry); fonts, sizes, spacing and
    alignment are left out. */
module Docs {
  import opened PyText

  /** A run of text with its character formatting. */
  datatype Run = Run(text: string, bold: bool, italic: bool, superscript: bool, subscript: bool)

  function Plain(t: string): Run { Run(t, false, false, false, false) }
  function Bold(t: string): Run { Run(t, true, false, false, false) }
  function Italic(t: string): Run { Run(t, false, true, false, false) }

  /** A paragraph of runs (with or without a first-line indent), or the
      paragraph `add_picture` creates for an image of a given width in cm. */
  datatype Paragraph =
    | Para(runs: seq<Run>, indented: bool)
    | Picture(path: string, width: real)

  /** `WD_SECTION`: how a section starts. */
  datatype SectionStart = Continuous | NewColumn | NewPage | EvenPage | OddPage

  /** `WD_ORIENT`. */
  datatype Orientation = Portrait | Landscape

  /** Page size and margins, in millimetres. */
  datatype Geometry = Geometry(
    orientation: Orientation,
    pageWidth: nat, pageHeight: nat,
    top: nat, right: nat, left: nat, bottom: nat)

  /** Portrait A4 with 20 mm margins and a 15 mm bottom margin: the page
      every record is written on. */
  const A4: Geometry := Geometry(Portrait, 210, 297, 20, 20, 20, 15)

  datatype Section = Section(start: SectionStart, geometry: Geometry, paragraphs: seq<Paragraph>)

  /** A document always has at least one section; new paragraphs go to the
      last one. */
  datatype Document = Document(sections: seq<Section>)

  /** The texts of a sequence of runs. */
  function Texts(runs: seq<Run>): (r: seq<string>)
    ensures |r| == |runs| && forall k :: 0 <= k < |runs| ==> r[k] == runs[k].text
  {
    seq(|runs|, k requires 0 <= k < |runs| => runs[k].text)
  }

  /** The text a sequence of runs shows, run after run. */
  function TextOf(runs: seq<Run>): string {
    Concat(Texts(runs))
  }

  /** The text of two run sequences one after the other. */
  lemma TextOfAppend(a: seq<Run>, b: seq<Run>)
    ensures TextOf(a + b) == TextOf(a) + TextOf(b)
  {
    assert Texts(a + b) == Texts(a) + Texts(b);
    ConcatAppend(Texts(a), Texts(b));
  }

  /** The text of a single run is its own. */
  lemma TextOfOne(x: Run)
    ensures TextOf([x]) == x.text
  {
    assert Texts([x]) == [x.text];
    assert Concat([x.text]) == x.text + Concat([]);
  }

  /** The text of four runs. */
  lemma TextOfFour(a: Run, b: Run, c: Run, d: Run)
    ensures TextOf([a, b, c, d]) == a.text + b.text + c.text + d.text
  {
    assert [a, b, c, d] == [a] + [b, c, d];
    assert [b, c, d] == [b] + [c, d];
    assert [c, d] == [c] + [d];
    TextOfAppend([a], [b, c, d]);
    TextOfAppend([b], [c, d]);
    TextOfAppend([c], [d]);
    TextOfOne(a);
    TextOfOne(b);
    TextOfOne(c);
    TextOfOne(d);
  }
}

=== FILE: generator.dfy ===
/** `write_docx`: every record of the table is written on its own portrait
    A4 page. The first record goes into the document's existing body and
    its first section gets the page settings; each later record starts a new
    section on a new page. A record the chosen layout cannot write stops the
    whole run, and nothing is saved. */
module Generator {
  import opened Wrappers
  import opened Docs
  import opened Records
  import opened ImageSize
  import Aini
  import Jscpb

  /** The template type that selects the aini2016 layout; any other value
      selects jscpb2016. */
  const AiniTemplate: string := "aini2016"

  /** What one record contributes under the chosen template type. */
  function RecordBody(rec: Record, templateType: string, imageDir: string, images: map<string, ImageInfo>): Result<seq<Paragraph>, Error> {
    if templateType == AiniTemplate then
      var blocks :- Aini.AiniLayout(rec, imageDir, images);
      Ok(Aini.Paragraphs(blocks))
    else Jscpb.JscpbLayout(rec)
  }

  /** The template type chooses the layout: exactly "aini2016" selects the
      aini2016 paragraphs (and its failures), anything else the jscpb2016
      ones. */
  lemma RecordBodyDispatch(rec: Record, templateType: string, imageDir: string, images: map<string, ImageInfo>)
    ensures var r := RecordBody(rec, templateType, imageDir, images);
            templateType == AiniTemplate ==>
              && (r.Ok? <==> Aini.AiniLayout(rec, imageDir, images).Ok?)
              && (r.Ok? ==> r.value == Aini.Paragraphs(Aini.AiniLayout(rec, imageDir, images).value))
              && (r.Err? ==> r.error == Aini.AiniLayout(rec, imageDir, images).error)
    ensures templateType != AiniTemplate ==> RecordBody(rec, templateType, imageDir, images) == Jscpb.JscpbLayout(rec)
  {
  }

  /** The page settings applied to section `i`: portrait A4 and the
      margins, nothing else about the section changed. */
  function SetPage(doc: Document, i: nat): (r: Document)
    requires i < |doc.sections|
    ensures |r.sections| == |doc.sections|
    ensures r.sections[i] == Section(doc.sections[i].start, A4, doc.sections[i].paragraphs)
    ensures forall k :: 0 <= k < |doc.sections| && k != i ==> r.sections[k] == doc.sections[k]
  {
    Document(doc.sections[i := doc.sections[i].(geometry := A4)])
  }

  /** `doc.add_section(WD_SECTION.NEW_PAGE)`: a new, empty last section that
      starts on a new page and copies the page of the section before it. */
  function AddSection(doc: Document): (r: Document)
    requires |doc.sections| >= 1
    ensures |r.sections| == |doc.sections| + 1
    ensures r.sections[..|doc.sections|] == doc.sections
    ensures r.sections[|doc.sections|] == Section(NewPage, doc.sections[|doc.sections| - 1].geometry, [])
  {
    Document(doc.sections + [Section(NewPage, doc.sections[|doc.sections| - 1].geometry, [])])
  }

  /** Paragraphs added to a document go to the end of its body, that is,
      into its last section. */
  function Append(doc: Document, ps: seq<Paragraph>): (r: Document)
    requires |doc.sections| >= 1
    ensures |r.sections| == |doc.sections|
    ensures forall k :: 0 <= k < |doc.sections| - 1 ==> r.sections[k] == doc.sections[k]
    ensures var last := doc.sections[|doc.sections| - 1];
            r.sections[|doc.sections| - 1] == Section(last.start, last.geometry, last.paragraphs + ps)
  {
    var n := |doc.sections|;
    var last := doc.sections[n - 1];
    Document(doc.sections[n - 1 := last.(paragraphs := last.paragraphs + ps)])
  }

  /** The document after writing the bodies of all records, stated
      directly rather than step by step: the first section carries the
      page settings, the last section of the starting document gets the
      first body after its own paragraphs, and every further body is a
      section of its own on a new A4 page. */
  function Written(initial: Document, bodies: seq<seq<Paragraph>>): Document
    requires |initial.sections| >= 1
  {
    if bodies == [] then initial
    else
      var s := SetPage(initial, 0).sections;
      var n := |s|;
      Document(s[..n - 1] + [s[n - 1].(paragraphs := s[n - 1].paragraphs + bodies[0])]
               + seq(|bodies| - 1, k requires 0 <= k < |bodies| - 1 => Section(NewPage, A4, bodies[k + 1])))
  }

  /** One more record extends the written document as one turn of the
      generator's loop does. */
  lemma WrittenSnoc(initial: Document, bodies: seq<seq<Paragraph>>, body: seq<Paragraph>)
    requires |initial.sections| >= 1
    ensures bodies == [] ==> Written(initial, [body]) == Append(SetPage(initial, 0), body)
    ensures bodies != [] ==>
              var doc := AddSection(Written(initial, bodies));
              Written(initial, bodies + [body]) == Append(SetPage(doc, |doc.sections| - 1), body)
  {
    if bodies != [] {
      var doc := AddSection(Written(initial, bodies));
      var want := Append(SetPage(doc, |doc.sections| - 1), body);
      var got := Written(initial, bodies + [body]);
      assert |got.sections| == |want.sections|;
      forall k | 0 <= k < |got.sections|
        ensures got.sections[k] == want.sections[k]
      {
      }
    } else {
      var a := Append(SetPage(initial, 0), body);
      assert Written(initial, [body]).sections == a.sections;
    }
  }

  /** The shape of the written document: one section per record beyond the
      starting ones, the first section and every record's section on the
      A4 page, each record's paragraphs in their own section, and the
      starting sections otherwise kept. */
  lemma WrittenShape(initial: Document, bodies: seq<seq<Paragraph>>)
    requires |initial.sections| >= 1 && bodies != []
    ensures var w, n := Written(initial, bodies).sections, |initial.sections|;
            && |w| == n + |bodies| - 1
            && w[0].geometry == A4 && w[0].start == initial.sections[0].start
            && (forall k :: 0 < k < n - 1 ==> w[k] == initial.sections[k])
            && w[n - 1].paragraphs == initial.sections[n - 1].paragraphs + bodies[0]
            && (forall k :: 1 <= k < |bodies| ==> w[n - 1 + k] == Section(NewPage, A4, bodies[k]))
            && (forall k :: n - 1 <= k < |w| ==> w[k].geometry == A4 || (n > 1 && k == n - 1))
  {
  }

  /** The section loop of `write_docx` for a given way of rendering one
      record. */
  method WriteRecords(records: seq<Record>, render: Record -> Result<seq<Paragraph>, Error>, initial: Document)
    returns (r: Result<Document, Error>)
    requires |initial.sections| >= 1
    ensures r.Ok? <==> forall k :: 0 <= k < |records| ==> render(records[k]).Ok?
    ensures r.Ok? ==> r.value == Written(initial, seq(|records|, k requires 0 <= k < |records| => render(records[k]).value))
    ensures r.Err? ==> exists k :: && 0 <= k < |records| && render(records[k]).Err?
                                   && r.error == render(records[k]).error
                                   && forall k' :: 0 <= k' < k ==> render(records[k']).Ok?
  {
    var doc := initial;
    var first := true;
    ghost var bodies: seq<seq<Paragraph>> := [];
    var i := 0;
    while i < |records|
      invariant 0 <= i <= |records|
      invariant first <==> i == 0
      invariant |bodies| == i
      invariant forall k :: 0 <= k < i ==> render(records[k]).Ok? && bodies[k] == render(records[k]).value
      invariant doc == Written(initial, bodies)
    {
      if !first {
        doc := AddSection(doc);
      }
      doc := SetPage(doc, if first then 0 else |doc.sections| - 1);
      var body := render(records[i]);
      if body.Err? {
        return Err(body.error);
      }
      WrittenSnoc(initial, bodies, body.value);
      doc := Append(doc, body.value);
      bodies := bodies + [body.value];
      first := false;
      i := i + 1;
    }
    assert bodies == seq(|records|, k requires 0 <= k < |records| => render(records[k]).value);
    r := Ok(doc);
  }

  /** `write_docx` on the records of a table, given the document it starts
      from (the template's or a blank one). */
  method WriteDocx(records: seq<Record>, templateType: string, imageDir: string,
                   images: map<string, ImageInfo>, initial: Document)
    returns (r: Result<Document, Error>)
    requires |initial.sections| >= 1
    ensures r.Ok? <==> forall k :: 0 <= k < |records| ==> RecordBody(records[k], templateType, imageDir, images).Ok?
    ensures r.Ok? ==> r.value == Written(initial, seq(|records|, k requires 0 <= k < |records| =>
                                                        RecordBody(records[k], templateType, imageDir, images).value))
    ensures r.Err? ==> exists k :: && 0 <= k < |records|
                                   && RecordBody(records[k], templateType, imageDir, images).Err?
                                   && r.error == RecordBody(records[k], templateType, imageDir, images).error
                                   && forall k' :: 0 <= k' < k ==> RecordBody(records[k'], templateType, imageDir, images).Ok?
  {
    var render := rec => RecordBody(rec, templateType, imageDir, images);
    r := WriteRecords(records, render, initial);
    ghost var bodies := seq(|records|, k requires 0 <= k < |records| => render(records[k]));
    assert forall k :: 0 <= k < |records| ==> bodies[k] == RecordBody(records[k], templateType, imageDir, images);
    if r.Ok? {
      assert seq(|records|, k requires 0 <= k < |records| => render(records[k]).value)
          == seq(|records|, k requires 0 <= k < |records| => RecordBody(records[k], templateType, imageDir, images).value);
    }
  }
}

=== FILE: imagesize.dfy ===
/** Figure sizing (`_get_image_size` and `_get_preferred_image_size`): the
    physical size of an image from its pixel size and resolution, scaled
    down to fit 14 cm by 8.5 cm. Exact `real` arithmetic stands in for
    floating point. */
module ImageSize {
  import opened Wrappers

  /** What the image library reports: the pixel size and the resolution
      entries of the `info` dictionary, each a (horizontal, vertical) pair. */
  datatype ImageInfo = ImageInfo(
    pixelWidth: nat, pixelHeight: nat,
    dpi: Option<(real, real)>,
    jfifDensity: Option<(real, real)>)

  const DefaultDpi: real := 72.0
  const MaxWidth: real := 14.0
  const MaxHeight: real := 8.5
  const CmPerInch: real := 2.54

  /** The resolution used: 72 dpi unless the image has a `dpi` entry, and
      its `jfif_density` entry wins over both. */
  function SelectDpi(info: ImageInfo): (r: (real, real))
    ensures info.jfifDensity.Some? ==> r == info.jfifDensity.value
    ensures info.jfifDensity.None? && info.dpi.Some? ==> r == info.dpi.value
    ensures info.jfifDensity.None? && info.dpi.None? ==> r == (DefaultDpi, DefaultDpi)
  {
    var d := if info.dpi.Some? then info.dpi.value else (DefaultDpi, DefaultDpi);
    if info.jfifDensity.Some? then info.jfifDensity.value else d
  }

  /** `_get_image_size`: a length of `pixel` dots at `dpi` dots per inch, in
      centimetres. */
  function PhysicalLength(pixel: real, dpi: real): (r: real)
    requires dpi != 0.0
    ensures r * dpi == pixel * CmPerInch
  {
    pixel / dpi * CmPerInch
  }

  /** The two clamping steps of `_get_preferred_image_size`: first the
      width is brought down to 14 (the height follows), then the height to
      8.5 (the width follows). Whatever the input, the result fits both
      caps and keeps the aspect ratio. */
  function Clamp(width: real, height: real): (r: (real, real))
    ensures r.0 <= MaxWidth && r.1 <= MaxHeight
    ensures r.0 * height == r.1 * width
    ensures width <= MaxWidth && height <= MaxHeight ==> r == (width, height)
    ensures width > 0.0 && height > 0.0 ==> r.0 > 0.0 && r.1 > 0.0
  {
    var (w1, h1) := if width > MaxWidth then (MaxWidth, height * MaxWidth / width) else (width, height);
    assert w1 * height == h1 * width;
    if h1 > MaxHeight then
      ClampStep(width, height, w1, h1);
      (w1 * MaxHeight / h1, MaxHeight)
    else (w1, h1)
  }

  /** Scaling `(w1, h1)` to height 8.5 keeps a ratio they already share
      with `(width, height)`. */
  lemma ClampStep(width: real, height: real, w1: real, h1: real)
    requires h1 > MaxHeight && w1 * height == h1 * width
    ensures (w1 * MaxHeight / h1) * height == MaxHeight * width
    ensures w1 <= MaxWidth ==> w1 * MaxHeight / h1 <= MaxWidth
  {
    var f := MaxHeight / h1;
    assert 0.0 < f < 1.0;
    assert w1 * MaxHeight / h1 == w1 * f;
    assert (w1 * f) * height == f * (w1 * height);
  }

  /** The factor by which the two steps together scale a positive size:
      1 when it fits, otherwise the smaller of the two cap ratios. */
  function ScaleFactor(width: real, height: real): real
    requires width > 0.0 && height > 0.0
  {
    var fw := if width > MaxWidth then MaxWidth / width else 1.0;
    var fh := if height > MaxHeight then MaxHeight / height else 1.0;
    if fw <= fh then fw else fh
  }

  /** Division facts for a positive divisor. */
  lemma DivFacts(x: real, a: real, b: real)
    requires b > 0.0
    ensures x * (a / b) == x * a / b
    ensures (a / b) * b == a
    ensures x * b <= a ==> x <= a / b
    ensures a < x * b ==> a / b < x
  {
    var q := a / b;
    assert q * b == a;
    if x * b <= a {
      assert (x - q) * b <= 0.0;
    }
    if a < x * b {
      assert (x - q) * b > 0.0;
    }
  }

  /** Clamping the width by `c / w` and then the height to `d` is scaling
      by `d / h` at once. */
  lemma Cancel(c: real, d: real, w: real, h: real)
    requires c > 0.0 && w > 0.0 && h > 0.0
    ensures c * d / (h * c / w) == w * (d / h)
  {
    var x := h * c / w;
    assert x > 0.0;
    assert x == h * (c / w);
    assert c * d / x == (c * d) / (h * (c / w));
  }

  /** Too wide, and still too high once the width is clamped: the height
      cap decides. */
  lemma ClampWideHigh(width: real, height: real)
    requires width > MaxWidth && height > 0.0 && height * MaxWidth / width > MaxHeight
    ensures height > MaxHeight && MaxHeight / height < MaxWidth / width
    ensures Clamp(width, height).0 == width * (MaxHeight / height)
    ensures Clamp(width, height).1 == height * (MaxHeight / height)
  {
    var h1 := height * MaxWidth / width;
    assert h1 == height * (MaxWidth / width);
    assert MaxWidth / width < 1.0;
    assert height > MaxHeight;
    DivFacts(MaxWidth / width, MaxHeight, height);
    assert Clamp(width, height) == (MaxWidth * MaxHeight / h1, MaxHeight);
    Cancel(MaxWidth, MaxHeight, width, height);
    assert MaxWidth * MaxHeight / h1 == width * (MaxHeight / height);
    assert height * (MaxHeight / height) == MaxHeight;
  }

  /** Too wide but low enough once the width is clamped: the width cap
      decides. */
  lemma ClampWideLow(width: real, height: real)
    requires width > MaxWidth && height > 0.0 && height * MaxWidth / width <= MaxHeight
    ensures height > MaxHeight ==> MaxWidth / width <= MaxHeight / height
    ensures Clamp(width, height).0 == width * (MaxWidth / width)
    ensures Clamp(width, height).1 == height * (MaxWidth / width)
  {
    assert height * MaxWidth / width == height * (MaxWidth / width);
    if height > MaxHeight {
      DivFacts(MaxWidth / width, MaxHeight, height);
    }
    assert width * (MaxWidth / width) == MaxWidth;
  }

  /** Narrow enough but too high: the height cap decides. */
  lemma ClampHigh(width: real, height: real)
    requires 0.0 < width <= MaxWidth && height > MaxHeight
    ensures Clamp(width, height).0 == width * (MaxHeight / height)
    ensures Clamp(width, height).1 == height * (MaxHeight / height)
  {
    assert width * MaxHeight / height == width * (MaxHeight / height);
    assert height * (MaxHeight / height) == MaxHeight;
  }

  /** The sequential clamp is one uniform scaling, by a factor of at most
      1. */
  lemma ClampIsUniformScale(width: real, height: real)
    requires width > 0.0 && height > 0.0
    ensures 0.0 < ScaleFactor(width, height) <= 1.0
    ensures Clamp(width, height).0 == width * ScaleFactor(width, height)
    ensures Clamp(width, height).1 == height * ScaleFactor(width, height)
  {
    DivFacts(1.0, MaxWidth, width);
    DivFacts(1.0, MaxHeight, height);
    if width > MaxWidth {
      if height * MaxWidth / width > MaxHeight {
        ClampWideHigh(width, height);
      } else {
        ClampWideLow(width, height);
      }
    } else if height > MaxHeight {
      assert MaxHeight / height < 1.0;
      assert ScaleFactor(width, height) == MaxHeight / height;
      ClampHigh(width, height);
    }
  }

  /** No larger factor fits: scaling by more than `ScaleFactor` breaks a
      cap. */
  lemma ScaleFactorLargest(width: real, height: real, f: real)
    requires width > 0.0 && height > 0.0
    requires width * f <= MaxWidth && height * f <= MaxHeight && f <= 1.0
    ensures f <= ScaleFactor(width, height)
  {
    if width > MaxWidth {
      assert f <= MaxWidth / width;
    }
    if height > MaxHeight {
      assert f <= MaxHeight / height;
    }
  }

  /** `_get_preferred_image_size` without the file access: the clamped
      physical size, or None where a zero resolution makes the generator
      divide by zero. */
  function PreferredSize(info: ImageInfo): (r: Option<(real, real)>)
    ensures r.None? <==> SelectDpi(info).0 == 0.0 || SelectDpi(info).1 == 0.0
    ensures r.Some? ==> r.value.0 <= MaxWidth && r.value.1 <= MaxHeight
    ensures r.Some? ==> r.value.0 * PhysicalLength(info.pixelHeight as real, SelectDpi(info).1)
                        == r.value.1 * PhysicalLength(info.pixelWidth as real, SelectDpi(info).0)
  {
    var (dx, dy) := SelectDpi(info);
    if dx == 0.0 || dy == 0.0 then None
    else Some(Clamp(PhysicalLength(info.pixelWidth as real, dx), PhysicalLength(info.pixelHeight as real, dy)))
  }

  /** 2800 x 850 pixels at the default 72 dpi: 98.8 cm wide, so the width is
      clamped to 14 and the height follows to 4.25, under its own cap. */
  lemma PreferredSizeExample()
    ensures PreferredSize(ImageInfo(2800, 850, None, None)) == Some((14.0, 4.25))
  {
    var w := PhysicalLength(2800.0, 72.0);
    var h := PhysicalLength(850.0, 72.0);
    assert w > MaxWidth;
    assert h * MaxWidth / w == 4.25;
  }
}

=== FILE: jscpb.dfy ===
/** The "jscpb2016" layout (`_write_doc_jscpb2016`): five paragraphs per
    record: the bold title with inline markup, the authors with their
    reference numbers in superscript, the italic affiliations, the abstract
    with inline markup and the keywords. */
module Jscpb {
  import opened Wrappers
  import opened PyText
  import opened Cells
  import opened Docs
  import opened Records
  import Parens
  import Markup

  // Column names of the input table.
  const TitleField: string := "title"
  const AuthorsField: string := "authors"
  const AffiliationsField: string := "affiliations"
  const AbstractField: string := "abstract"
  const KeywordsField: string := "keywords"

  const KeywordsLabel: string := "Keywords: "

  /** The title paragraph: the runs of the markup tokenizer, each made
      bold and otherwise unchanged. */
  function TitleRuns(title: string): (r: seq<Run>)
    ensures |r| == |Markup.Tokenize(title, false)|
    ensures forall k :: 0 <= k < |r| ==> r[k].bold
  {
    var t := Markup.Tokenize(title, false);
    seq(|t|, k requires 0 <= k < |t| => t[k].(bold := true))
  }

  /** Making the title bold changes nothing but the weight: texts, italics,
      superscripts and subscripts are those the tokenizer gives. */
  lemma TitleRunsKeepMarkup(title: string)
    ensures var r, t := TitleRuns(title), Markup.Tokenize(title, false);
            && Texts(r) == Texts(t)
            && forall k :: 0 <= k < |r| ==>
                 r[k].italic == t[k].italic && r[k].superscript == t[k].superscript && r[k].subscript == t[k].subscript
  {
  }

  /** The author paragraph: one run per piece of `re.split(r'(\(\w+\))',
      authors)`, the captured reference marks (odd pieces) in superscript.
      Empty pieces still make a run. */
  function AuthorRuns(authors: string): (r: seq<Run>)
    ensures |r| == |Parens.SuperSplit(authors)| && |r| % 2 == 1
    ensures forall k :: 0 <= k < |r| ==> !r[k].bold && !r[k].italic && !r[k].subscript
  {
    var pieces := Parens.SuperSplit(authors);
    seq(|pieces|, k requires 0 <= k < |pieces| => Run(pieces[k], false, false, k % 2 == 1, false))
  }

  /** The author runs read as the authors cell, character for character. */
  lemma AuthorRunsRoundTrip(authors: string)
    ensures TextOf(AuthorRuns(authors)) == authors
  {
    assert Texts(AuthorRuns(authors)) == Parens.SuperSplit(authors);
    Parens.SuperSplitRoundTrip(authors);
  }

  /** Exactly the reference marks are superscript, and each is a word in
      parentheses. */
  lemma AuthorRunsSuperscript(authors: string)
    ensures var r := AuthorRuns(authors);
            forall k :: 0 <= k < |r| ==>
              && (r[k].superscript <==> k % 2 == 1)
              && (r[k].superscript ==>
                    |r[k].text| >= 3 && r[k].text[0] == '(' && r[k].text[|r[k].text| - 1] == ')'
                    && Parens.IsWord(r[k].text[1..|r[k].text| - 1]))
  {
    var g := Parens.GroupSplit(authors);
    Parens.GroupSplitShape(authors);
    var r := AuthorRuns(authors);
    forall k | 0 <= k < |r| && k % 2 == 1
      ensures |r[k].text| >= 3 && r[k].text[1..|r[k].text| - 1] == g[k]
    {
      assert r[k].text == "(" + g[k] + ")";
    }
  }

  /** `doc.add_paragraph(affiliations)` followed by formatting its first
      run: an empty text makes no run, so there is nothing to format; a
      blank (NaN) cell is not text. */
  function AffiliationParagraph(c: Cell): (r: Result<Paragraph, Error>)
    ensures r.Ok? <==> c.Str? && c.text != []
    ensures r.Ok? ==> r.value == Para([Run(c.text, false, true, false, false)], false)
    ensures c == Str([]) ==> r == Err(NoAffiliationRun)
  {
    if c.NaN? then Err(NotText(AffiliationsField))
    else if c.text == [] then Err(NoAffiliationRun)
    else Ok(Para([Run(c.text, false, true, false, false)], false))
  }

  /** What a record needs for this layout to succeed. */
  predicate Writable(rec: Record) {
    && TitleField in rec && rec[TitleField].Str?
    && AuthorsField in rec && rec[AuthorsField].Str?
    && AffiliationsField in rec && rec[AffiliationsField].Str? && rec[AffiliationsField].text != []
    && AbstractField in rec && rec[AbstractField].Str?
    && KeywordsField in rec && rec[KeywordsField].Str?
  }

  /** `_write_doc_jscpb2016` for one record, columns read in the generator's
      order. */
  function JscpbLayout(rec: Record): (r: Result<seq<Paragraph>, Error>)
    ensures r.Ok? <==> Writable(rec)
    ensures r.Ok? ==> |r.value| == 5
    ensures r.Ok? ==> && r.value[0] == Para(TitleRuns(rec[TitleField].text), false)
                      && r.value[1] == Para(AuthorRuns(rec[AuthorsField].text), false)
                      && r.value[2] == Para([Run(rec[AffiliationsField].text, false, true, false, false)], false)
                      && r.value[3] == Para(Markup.Tokenize(rec[AbstractField].text, false), false)
                      && r.value[4] == Para([Plain(KeywordsLabel), Italic(rec[KeywordsField].text)], false)
  {
    var title :- GetText(rec, TitleField);
    var authors :- GetText(rec, AuthorsField);
    var affiliations :- Get(rec, AffiliationsField);
    var affiliationParagraph :- AffiliationParagraph(affiliations);
    var abstractText :- GetText(rec, AbstractField);
    var keywords :- GetText(rec, KeywordsField);
    Ok([ Para(TitleRuns(title), false),
         Para(AuthorRuns(authors), false),
         affiliationParagraph,
         Para(Markup.Tokenize(abstractText, false), false),
         Para([Plain(KeywordsLabel), Italic(keywords)], false) ])
  }

  /** An empty affiliations text stops the record once title and authors
      were read, whatever the later columns hold. */
  lemma EmptyAffiliationsFail(rec: Record)
    requires TitleField in rec && rec[TitleField].Str?
    requires AuthorsField in rec && rec[AuthorsField].Str?
    requires AffiliationsField in rec && rec[AffiliationsField] == Str([])
    ensures JscpbLayout(rec) == Err(NoAffiliationRun)
  {
  }

  /** The keywords paragraph reads "Keywords: " and the keywords, the
      keywords alone in italics. */
  lemma KeywordsText(rec: Record)
    requires JscpbLayout(rec).Ok?
    ensures var p := JscpbLayout(rec).value[4];
            && TextOf(p.runs) == KeywordsLabel + rec[KeywordsField].text
            && forall k :: 0 <= k < |p.runs| ==> (p.runs[k].italic <==> k == 1)
  {
    var p := JscpbLayout(rec).value[4];
    assert p.runs == [Plain(KeywordsLabel)] + [Italic(rec[KeywordsField].text)];
    TextOfAppend([Plain(KeywordsLabel)], [Italic(rec[KeywordsField].text)]);
    TextOfOne(Plain(KeywordsLabel));
    TextOfOne(Italic(rec[KeywordsField].text));
  }
}

=== FILE: markup.dfy ===
/** Inline markup in titles and abstracts (`_apply_it_sup_sub`): the text is
    split on tag spans `(\<.*?\>.*?\</.*?\>)`, each piece becomes one run,
    a piece that starts with `<i>…</i>`, `<sup>…</sup>` or `<sub>…</sub>`
    is set italic, superscript or subscript, and unless debugging every
    `<[^>]*?>` is stripped from the run's text.

    As in Python's `re`, `.` does not match a newline; `[^>]` does. */
module Markup {
  import opened PyText
  import opened Wrappers
  import opened Docs

  const Gt: string := ">"
  const EndOpen: string := "</"

  /** `pat` occurs in `s` at position `p`. */
  predicate At(s: string, p: int, pat: string) {
    0 <= p && p + |pat| <= |s| && forall k :: 0 <= k < |pat| ==> s[p + k] == pat[k]
  }

  /** `s[a..b]` holds no newline. */
  predicate OneLine(s: string, a: int, b: int) {
    0 <= a <= b <= |s| && forall k :: a <= k < b ==> s[k] != '\n'
  }

  /** A lazy `.*?` followed by `pat`, starting at `from`: the first
      occurrence of `pat` that no newline precedes. */
  function Scan(s: string, from: nat, pat: string): (r: Option<nat>)
    requires from <= |s|
    ensures r.Some? ==> from <= r.value && At(s, r.value, pat) && OneLine(s, from, r.value)
    ensures r.Some? ==> forall q :: from <= q < r.value ==> !At(s, q, pat)
    ensures r.None? ==> forall q :: from <= q && At(s, q, pat) ==> !OneLine(s, from, q)
    decreases |s| - from
  {
    if At(s, from, pat) then Some(from)
    else if from == |s| || s[from] == '\n' then None
    else Scan(s, from + 1, pat)
  }

  /** `s[i..j]` is in the language of `\<.*?\>.*?\</.*?\>`: one line that
      opens with '<', closes with '>', and has a '>' and after it a "</"
      in between. */
  predicate TagSpan(s: string, i: int, j: int) {
    && 0 <= i < j <= |s|
    && OneLine(s, i, j)
    && s[i] == '<' && s[j - 1] == '>'
    && exists a, b :: i < a < b && b + 2 < j && s[a] == '>' && At(s, b, EndOpen)
  }

  /** The end of the tag span the lazy pattern matches at `i`: the first
      '>', then the first "</", then the first '>', none past a newline. */
  function TagEnd(s: string, i: nat): (r: Option<nat>)
    ensures r.Some? ==> i < r.value <= |s|
  {
    if i >= |s| || s[i] != '<' then None
    else
      var a := Scan(s, i + 1, Gt);
      if a.None? then None
      else
        var b := Scan(s, a.value + 1, EndOpen);
        if b.None? then None
        else
          var c := Scan(s, b.value + 2, Gt);
          if c.None? then None else Some(c.value + 1)
  }

  /** `>` at `p` is the character '>' there. */
  lemma AtGt(s: string, p: int)
    requires 0 <= p < |s|
    ensures At(s, p, Gt) <==> s[p] == '>'
  {
    assert |Gt| == 1 && Gt[0] == '>';
    assert s[p + 0] == s[p];
  }

  /** The lazy match, when there is one, is in the pattern's language. */
  lemma TagEndSound(s: string, i: nat)
    requires TagEnd(s, i).Some?
    ensures TagSpan(s, i, TagEnd(s, i).value)
  {
    var a := Scan(s, i + 1, Gt).value;
    var b := Scan(s, a + 1, EndOpen).value;
    var c := Scan(s, b + 2, Gt).value;
    assert TagEnd(s, i).value == c + 1;
    AtGt(s, a);
    AtGt(s, c);
    assert At(s, b, EndOpen);
    assert OneLine(s, i, c + 1) by {
      assert s[i] == '<' && OneLine(s, i + 1, a) && OneLine(s, a + 1, b) && OneLine(s, b + 2, c);
      assert s[b] == '<' && s[b + 1] == '/' by {
        assert s[b + 0] == EndOpen[0] && s[b + 1] == EndOpen[1];
      }
    }
    assert i < a < b && b + 2 < c + 1 && s[a] == '>' && At(s, b, EndOpen);
  }

  /** An occurrence of `pat` that no newline precedes is found, at it or
      before it. */
  lemma ScanFinds(s: string, from: nat, p: int, pat: string)
    requires from <= p && At(s, p, pat) && OneLine(s, from, p)
    ensures Scan(s, from, pat).Some? && Scan(s, from, pat).value <= p
  {
  }

  /** The lazy match ends right after the third scan. */
  lemma TagEndOfScans(s: string, i: nat, a: nat, b: nat, c: nat)
    requires i < |s| && s[i] == '<'
    requires Scan(s, i + 1, Gt) == Some(a)
    requires a + 1 <= |s| && Scan(s, a + 1, EndOpen) == Some(b)
    requires b + 2 <= |s| && Scan(s, b + 2, Gt) == Some(c)
    ensures TagEnd(s, i).Some? && TagEnd(s, i).value == c + 1
  {
  }

  lemma TagEndCompleteAt(s: string, i: nat, j: int, a': int, b': int)
    requires i < a' < b' && b' + 2 < j && OneLine(s, i, j) && s[i] == '<'
    requires At(s, a', Gt) && At(s, b', EndOpen) && At(s, j - 1, Gt)
    ensures TagEnd(s, i).Some? && TagEnd(s, i).value <= j
  {
    ScanFinds(s, i + 1, a', Gt);
    var a := Scan(s, i + 1, Gt).value;
    ScanFinds(s, a + 1, b', EndOpen);
    var b := Scan(s, a + 1, EndOpen).value;
    ScanFinds(s, b + 2, j - 1, Gt);
    var c := Scan(s, b + 2, Gt).value;
    TagEndOfScans(s, i, a, b, c);
  }

  /** Every span in the pattern's language that starts at `i` is at least
      as long as the lazy match, which therefore exists. */
  lemma TagEndComplete(s: string, i: nat, j: int)
    requires TagSpan(s, i, j)
    ensures TagEnd(s, i).Some? && TagEnd(s, i).value <= j
  {
    var a', b' :| i < a' < b' && b' + 2 < j && s[a'] == '>' && At(s, b', EndOpen);
    AtGt(s, a');
    AtGt(s, j - 1);
    TagEndCompleteAt(s, i, j, a', b');
  }

  /** The lazy match at `i` is the SHORTEST span starting at `i` in the
      pattern's language, and there is one exactly when some span is. */
  lemma TagEndShortest(s: string, i: nat)
    ensures TagEnd(s, i).Some? ==> TagSpan(s, i, TagEnd(s, i).value)
    ensures forall j :: TagSpan(s, i, j) ==> TagEnd(s, i).Some? && TagEnd(s, i).value <= j
  {
    if TagEnd(s, i).Some? {
      TagEndSound(s, i);
    }
    forall j | TagSpan(s, i, j)
      ensures TagEnd(s, i).Some? && TagEnd(s, i).value <= j
    {
      TagEndComplete(s, i, j);
    }
  }

  /** No tag span anywhere in `t`. */
  ghost predicate NoTag(t: string) {
    forall i, j :: !TagSpan(t, i, j)
  }

  /** The leftmost position at or after `from` where the tag pattern
      matches, with the end of that match. */
  function FirstTag(s: string, from: nat): (r: Option<(nat, nat)>)
    requires from <= |s|
    ensures r.Some? ==> from <= r.value.0 < r.value.1 <= |s| && TagEnd(s, r.value.0) == Some(r.value.1)
    ensures r.Some? ==> forall i :: from <= i < r.value.0 ==> TagEnd(s, i).None?
    ensures r.None? ==> forall i :: from <= i ==> TagEnd(s, i).None?
    decreases |s| - from
  {
    if from == |s| then None
    else match TagEnd(s, from)
      case Some(j) => Some((from, j))
      case None => FirstTag(s, from + 1)
  }

  /** `re.split(r'(\<.*?\>.*?\</.*?\>)', s)`: plain text at even indices,
      the matched tag spans at odd ones. */
  function TagSplit(s: string): (r: seq<string>)
    ensures |r| % 2 == 1
    decreases |s|
  {
    var m := FirstTag(s, 0);
    if m.None? then [s]
    else
      var (i, j) := m.value;
      [s[..i], s[i..j]] + TagSplit(s[j..])
  }

  /** The pieces of the split, concatenated, give back the text. */
  lemma {:induction false} TagSplitRoundTrip(s: string)
    ensures Concat(TagSplit(s)) == s
    decreases |s|
  {
    var m := FirstTag(s, 0);
    if m.Some? {
      var (i, j) := m.value;
      TagSplitRoundTrip(s[j..]);
      var rest := TagSplit(s[j..]);
      assert TagSplit(s) == [s[..i], s[i..j]] + rest;
      assert Concat(TagSplit(s)) == s[..i] + (s[i..j] + Concat(rest));
      assert s == s[..i] + (s[i..j] + s[j..]);
    }
  }

  /** A tag span inside the factor `s[n..m]` is a tag span of `s`, shifted. */
  lemma TagSpanOfFactor(s: string, n: nat, m: nat, i: int, j: int)
    requires n <= m <= |s| && TagSpan(s[n..m], i, j)
    ensures TagSpan(s, n + i, n + j)
  {
    var t := s[n..m];
    assert forall k :: 0 <= k < m - n ==> t[k] == s[n + k];
    var a, b :| i < a < b && b + 2 < j && t[a] == '>' && At(t, b, EndOpen);
    assert t[b..b + 2] == s[n + b..n + b + 2];
    assert OneLine(s, n + i, n + j);
    assert At(s, n + b, EndOpen);
  }

  /** A tag span of `s` that lies inside `s[n..m]` is one of the factor. */
  lemma TagSpanInFactor(s: string, n: nat, m: nat, i: int, j: int)
    requires n <= i && j <= m <= |s| && TagSpan(s, i, j)
    ensures TagSpan(s[n..m], i - n, j - n)
  {
    var t := s[n..m];
    assert forall k :: 0 <= k < m - n ==> t[k] == s[n + k];
    var a, b :| i < a < b && b + 2 < j && s[a] == '>' && At(s, b, EndOpen);
    assert t[b - n..b - n + 2] == s[b..b + 2];
    assert OneLine(t, i - n, j - n);
    assert t[a - n] == '>' && At(t, b - n, EndOpen);
  }

  /** A piece the split reports as a tag span is exactly the lazy match. */
  lemma TagPieceIsMatch(s: string, i: nat, j: nat)
    requires TagEnd(s, i).Some? && TagEnd(s, i).value == j
    ensures TagEnd(s[i..j], 0).Some? && TagEnd(s[i..j], 0).value == j - i
  {
    var t := s[i..j];
    TagEndShortest(s, i);
    TagSpanInFactor(s, i, j, i, j);
    TagEndShortest(t, 0);
    var v := TagEnd(t, 0).value;
    TagSpanOfFactor(s, i, j, 0, v);
  }

  /** A prefix that ends before the leftmost match holds no tag span. */
  lemma NoTagBefore(s: string, n: nat)
    requires n <= |s|
    requires forall p :: 0 <= p < n ==> TagEnd(s, p).None?
    ensures NoTag(s[..n])
  {
    forall p, q | TagSpan(s[..n], p, q)
      ensures false
    {
      TagSpanOfFactor(s, 0, n, p, q);
      TagEndShortest(s, p);
    }
  }

  /** `t` is exactly one lazy match of the tag pattern. */
  predicate IsTagPiece(t: string) {
    TagEnd(t, 0).Some? && TagEnd(t, 0).value == |t|
  }

  /** Pieces alternate between text without tags (even indices) and single
      tag matches (odd indices). */
  ghost predicate Alternates(pieces: seq<string>) {
    && (forall k :: 0 <= k < |pieces| && k % 2 == 0 ==> NoTag(pieces[k]))
    && (forall k :: 0 <= k < |pieces| && k % 2 == 1 ==> IsTagPiece(pieces[k]))
  }

  lemma AlternatesCons(x: string, y: string, rest: seq<string>)
    requires NoTag(x) && IsTagPiece(y) && Alternates(rest)
    ensures Alternates([x, y] + rest)
  {
    var p := [x, y] + rest;
    forall k | 2 <= k < |p|
      ensures p[k] == rest[k - 2] && (k % 2 == (k - 2) % 2)
    {
    }
  }

  /** The split alternates: even pieces hold no tag span, odd pieces are
      exactly what the pattern matches, so it is the leftmost scan. */
  lemma {:induction false} TagSplitShape(s: string)
    ensures Alternates(TagSplit(s))
    decreases |s|
  {
    var m := FirstTag(s, 0);
    if m.None? {
      NoTagBefore(s, |s|);
      assert s[..|s|] == s;
    } else {
      var (i, j) := m.value;
      TagSplitShape(s[j..]);
      NoTagBefore(s, i);
      TagPieceIsMatch(s, i, j);
      AlternatesCons(s[..i], s[i..j], TagSplit(s[j..]));
    }
  }

  /** Text without any '<' holds no tag span and splits into itself. */
  lemma TagSplitOfPlain(s: string)
    requires '<' !in s
    ensures NoTag(s)
    ensures TagSplit(s) == [s]
  {
    assert forall p :: 0 <= p < |s| ==> TagEnd(s, p).None?;
    assert FirstTag(s, 0).None?;
    NoTagBefore(s, |s|);
    assert s[..|s|] == s;
  }

  /** A text with no tag span is not split at all. */
  lemma TagSplitOfNoTag(s: string)
    requires NoTag(s)
    ensures TagSplit(s) == [s]
  {
    forall p | 0 <= p <= |s|
      ensures TagEnd(s, p).None?
    {
      TagEndShortest(s, p);
    }
    assert FirstTag(s, 0).None?;
  }

  /** `re.match` of `\<open\>.*?\</close\>` at the start of `t`. */
  predicate OpensAndCloses(t: string, open: string, close: string) {
    At(t, 0, open) && Scan(t, |open|, close).Some?
  }

  /** The start-anchored match succeeds exactly when `t` begins with the
      opening tag and the closing tag follows on the same line. */
  lemma OpensAndClosesIff(t: string, open: string, close: string)
    ensures OpensAndCloses(t, open, close) <==>
            At(t, 0, open) && exists p :: |open| <= p && At(t, p, close) && OneLine(t, |open|, p)
  {
    if OpensAndCloses(t, open, close) {
      var p := Scan(t, |open|, close).value;
      assert |open| <= p && At(t, p, close) && OneLine(t, |open|, p);
    }
  }

  const ItalicOpen: string := "<i>"
  const ItalicClose: string := "</i>"
  const SupOpen: string := "<sup>"
  const SupClose: string := "</sup>"
  const SubOpen: string := "<sub>"
  const SubClose: string := "</sub>"

  predicate IsItalic(t: string) { OpensAndCloses(t, ItalicOpen, ItalicClose) }
  predicate IsSup(t: string) { OpensAndCloses(t, SupOpen, SupClose) }
  predicate IsSub(t: string) { OpensAndCloses(t, SubOpen, SubClose) }

  /** Whenever a start-anchored format tag matches, the piece holds a tag
      span, for an opening tag `<…>` and a closing tag `</…>`. */
  lemma FlaggedHasTag(t: string, open: string, close: string)
    requires |open| >= 2 && open[0] == '<' && open[|open| - 1] == '>' && '\n' !in open
    requires |close| >= 3 && close[0] == '<' && close[1] == '/' && close[|close| - 1] == '>' && '\n' !in close
    ensures OpensAndCloses(t, open, close) ==> !NoTag(t)
  {
    if OpensAndCloses(t, open, close) {
      var p := Scan(t, |open|, close).value;
      var j := p + |close|;
      assert forall k :: 0 <= k < |open| ==> t[0 + k] == open[k];
      assert forall k :: 0 <= k < |close| ==> t[p + k] == close[k];
      assert OneLine(t, 0, j) by {
        forall k | 0 <= k < j
          ensures t[k] != '\n'
        {
          if k < |open| {
            assert t[0 + k] == open[k];
          } else if k >= p {
            assert t[p + (k - p)] == close[k - p];
          }
        }
      }
      assert At(t, p, EndOpen) by {
        assert t[p + 0] == close[0] && t[p + 1] == close[1];
      }
      assert t[0] == open[0];
      assert t[0 + (|open| - 1)] == open[|open| - 1];
      assert t[p + (|close| - 1)] == close[|close| - 1];
      assert TagSpan(t, 0, j);
    }
  }

  /** A piece without a tag span is never italic, superscript or subscript. */
  lemma PlainUnflagged(t: string)
    requires NoTag(t)
    ensures !IsItalic(t) && !IsSup(t) && !IsSub(t)
  {
    FlaggedHasTag(t, ItalicOpen, ItalicClose);
    FlaggedHasTag(t, SupOpen, SupClose);
    FlaggedHasTag(t, SubOpen, SubClose);
  }

  /** The first occurrence of `c` in `s`. */
  function IndexOf(s: string, c: char): (r: Option<nat>)
    ensures r.Some? ==> r.value < |s| && s[r.value] == c && c !in s[..r.value]
    ensures r.None? ==> c !in s
  {
    if s == [] then None
    else if s[0] == c then Some(0)
    else match IndexOf(s[1..], c)
      case None => None
      case Some(q) =>
        assert s[..q + 1] == [s[0]] + s[1..][..q];
        Some(q + 1)
  }

  /** No '<' in `t` is followed, anywhere later, by a '>': not a single
      `<…>` is left. */
  predicate TagFree(t: string) {
    forall i, j :: 0 <= i < j < |t| && t[i] == '<' ==> t[j] != '>'
  }

  /** `re.sub(r'<[^>]*?>', '', s)`: each '<' is removed together with
      everything up to the next '>' (newlines included); a '<' with no '>'
      after it is kept, and so is the rest of the text. */
  function StripTags(s: string): (r: string)
    ensures |r| <= |s|
    ensures TagFree(r)
    decreases |s|
  {
    if s == [] then []
    else if s[0] == '<' then
      match IndexOf(s, '>')
      case Some(q) => StripTags(s[q + 1..])
      case None => s
    else
      var rest := StripTags(s[1..]);
      assert forall j :: 1 <= j < |rest| + 1 ==> ([s[0]] + rest)[j] == rest[j - 1];
      [s[0]] + rest
  }

  /** Text that is already free of `<…>` passes through unchanged. */
  lemma {:induction false} StripTagsOfTagFree(s: string)
    requires TagFree(s)
    ensures StripTags(s) == s
    decreases |s|
  {
    if s != [] {
      if s[0] == '<' {
        assert IndexOf(s, '>').None?;
      } else {
        assert TagFree(s[1..]) by {
          assert forall i :: 0 <= i < |s| - 1 ==> s[1..][i] == s[i + 1];
        }
        StripTagsOfTagFree(s[1..]);
        assert s == [s[0]] + s[1..];
      }
    }
  }

  /** Stripping twice strips nothing more. */
  lemma StripTagsIdempotent(s: string)
    ensures StripTags(StripTags(s)) == StripTags(s)
  {
    StripTagsOfTagFree(StripTags(s));
  }

  /** Without any '<' there is nothing to strip. */
  lemma StripTagsOfPlain(s: string)
    requires '<' !in s
    ensures StripTags(s) == s
  {
    StripTagsOfTagFree(s);
  }

  /** One piece of the split as a run of the paragraph. */
  function RunOf(piece: string, debug: bool): Run {
    Run(if debug then piece else StripTags(piece), false, IsItalic(piece), IsSup(piece), IsSub(piece))
  }

  /** `_apply_it_sup_sub(doc, body, debug)`: the runs of the paragraph it
      adds, one per piece of the split, never bold, each italic,
      superscript or subscript exactly when its raw piece opens with the
      matching tag and closes it on the same line. */
  function Tokenize(s: string, debug: bool): (r: seq<Run>)
    ensures |r| == |TagSplit(s)| && |r| % 2 == 1
    ensures forall k :: 0 <= k < |r| ==> !r[k].bold
    ensures forall k :: 0 <= k < |r| ==>
              && r[k].italic == IsItalic(TagSplit(s)[k])
              && r[k].superscript == IsSup(TagSplit(s)[k])
              && r[k].subscript == IsSub(TagSplit(s)[k])
    ensures !debug ==> forall k :: 0 <= k < |r| ==> TagFree(r[k].text)
  {
    var pieces := TagSplit(s);
    seq(|pieces|, k requires 0 <= k < |pieces| => RunOf(pieces[k], debug))
  }

  /** In debug mode the runs keep the raw pieces, so their texts
      concatenate back to the input. */
  lemma TokenizeDebugRoundTrip(s: string)
    ensures Concat(Texts(Tokenize(s, true))) == s
  {
    assert Texts(Tokenize(s, true)) == TagSplit(s);
    TagSplitRoundTrip(s);
  }

  /** Without debugging each run's text is its piece with the tags stripped. */
  lemma TokenizeStripped(s: string, k: nat)
    requires k < |TagSplit(s)|
    ensures Tokenize(s, false)[k].text == StripTags(TagSplit(s)[k])
    ensures Tokenize(s, true)[k].text == TagSplit(s)[k]
  {
  }

  /** The plain pieces between tag spans are never formatted; the format
      flags come only from tag spans. */
  lemma TokenizePlainPieces(s: string, debug: bool)
    ensures forall k :: 0 <= k < |Tokenize(s, debug)| && k % 2 == 0 ==>
              !Tokenize(s, debug)[k].italic && !Tokenize(s, debug)[k].superscript && !Tokenize(s, debug)[k].subscript
  {
    TagSplitShape(s);
    forall k | 0 <= k < |Tokenize(s, debug)| && k % 2 == 0
      ensures !Tokenize(s, debug)[k].italic && !Tokenize(s, debug)[k].superscript && !Tokenize(s, debug)[k].subscript
    {
      PlainUnflagged(TagSplit(s)[k]);
    }
  }

  /** A body without any tag span gives one unformatted run; its text is
      the body itself when debugging or when it holds no '<'. */
  lemma TokenizeNoTag(s: string, debug: bool)
    requires NoTag(s)
    ensures Tokenize(s, debug) == [Run(if debug then s else StripTags(s), false, false, false, false)]
    ensures '<' !in s ==> Tokenize(s, debug) == [Plain(s)]
  {
    TagSplitOfNoTag(s);
    PlainUnflagged(s);
    if '<' !in s {
      StripTagsOfPlain(s);
    }
  }

  /** A found occurrence that nothing earlier on the line matches is the
      one `Scan` reports. */
  lemma ScanIs(s: string, from: nat, p: int, pat: string)
    requires from <= p && At(s, p, pat) && OneLine(s, from, p)
    requires forall q :: from <= q < p ==> !At(s, q, pat)
    ensures Scan(s, from, pat) == Some(p)
  {
    ScanFinds(s, from, p, pat);
  }

  /** A tag match placed after other text is still matched, and ends at
      the same place. */
  lemma TagEndOfPiece(a: string, t: string, b: string)
    requires IsTagPiece(t)
    ensures TagEnd(a + t + b, |a|) == Some(|a| + |t|)
  {
    var s := a + t + b;
    var n, m := |a|, |a| + |t|;
    assert s[n..m] == t;
    TagEndSound(t, 0);
    TagSpanOfFactor(s, n, m, 0, |t|);
    TagEndComplete(s, n, m);
    var v := TagEnd(s, n).value;
    TagEndSound(s, n);
    TagSpanInFactor(s, n, m, n, v);
    TagEndComplete(t, 0, v - n);
  }

  /** The leftmost match is the first position where the pattern matches. */
  lemma FirstTagIs(s: string, n: nat, m: nat)
    requires forall p :: 0 <= p < n ==> TagEnd(s, p).None?
    requires TagEnd(s, n) == Some(m)
    ensures FirstTag(s, 0) == Some((n, m))
  {
    var r := FirstTag(s, 0);
    assert r.Some?;
    assert r.value.0 == n;
  }

  /** Text without '<', one tag match and text without '<' split into
      exactly those three pieces. */
  lemma TagSplitOne(a: string, t: string, b: string)
    requires '<' !in a && IsTagPiece(t) && '<' !in b
    ensures TagSplit(a + t + b) == [a, t, b]
  {
    var s := a + t + b;
    var n, m := |a|, |a| + |t|;
    forall p | 0 <= p < n
      ensures TagEnd(s, p).None?
    {
      assert s[p] == a[p];
    }
    TagEndOfPiece(a, t, b);
    FirstTagIs(s, n, m);
    TagSplitOfPlain(b);
    assert s[..n] == a && s[n..m] == t && s[m..] == b;
    assert TagSplit(s) == [s[..n], s[n..m]] + TagSplit(s[m..]);
  }

  /** The runs of a body that splits into three pieces. */
  lemma TokenizeOfThree(s: string, debug: bool, x: string, y: string, z: string)
    requires TagSplit(s) == [x, y, z]
    ensures Tokenize(s, debug) == [RunOf(x, debug), RunOf(y, debug), RunOf(z, debug)]
  {
  }

  /** "<i>ital</i>" is one tag match, italic and nothing else. */
  lemma ItalPiece()
    ensures IsTagPiece("<i>ital</i>")
    ensures IsItalic("<i>ital</i>") && !IsSup("<i>ital</i>") && !IsSub("<i>ital</i>")
  {
    ItalTagPiece("<i>ital</i>");
    ItalFlags("<i>ital</i>");
  }

  lemma ItalChars(t: string)
    requires t == "<i>ital</i>"
    ensures |t| == 11
    ensures t[0] == '<' && t[1] == 'i' && t[2] == '>' && t[3] == 'i' && t[4] == 't'
    ensures t[5] == 'a' && t[6] == 'l' && t[7] == '<' && t[8] == '/' && t[9] == 'i' && t[10] == '>'
  {
  }

  lemma ItalTagPiece(t: string)
    requires t == "<i>ital</i>"
    ensures IsTagPiece(t)
  {
    ItalChars(t);
    AtGt(t, 1);
    AtGt(t, 2);
    ScanIs(t, 1, 2, Gt);
    assert At(t, 7, EndOpen);
    forall q | 3 <= q < 7
      ensures !At(t, q, EndOpen)
    {
      assert t[q + 0] != EndOpen[0];
    }
    ScanIs(t, 3, 7, EndOpen);
    AtGt(t, 9);
    AtGt(t, 10);
    ScanIs(t, 9, 10, Gt);
    TagEndOfScans(t, 0, 2, 7, 10);
  }

  lemma ItalFlags(t: string)
    requires t == "<i>ital</i>"
    ensures IsItalic(t) && !IsSup(t) && !IsSub(t)
  {
    ItalChars(t);
    assert At(t, 0, ItalicOpen) && At(t, 7, ItalicClose) && OneLine(t, 3, 7);
    ScanFinds(t, 3, 7, ItalicClose);
    assert t[1] != SupOpen[1] && t[1] != SubOpen[1];
  }

  /** A prefix without '<' is kept as it is. */
  lemma {:induction false} StripTagsPlainPrefix(a: string, y: string)
    requires '<' !in a
    ensures StripTags(a + y) == a + StripTags(y)
  {
    if a != [] {
      StripTagsPlainPrefix(a[1..], y);
      assert (a + y)[0] == a[0] && (a + y)[1..] == a[1..] + y;
      assert a == [a[0]] + a[1..];
    } else {
      assert a + y == y;
    }
  }

  /** A '<' up to the next '>' is removed. */
  lemma StripTagsDropsTag(x: string, y: string)
    requires '>' !in x
    ensures StripTags("<" + x + ">" + y) == StripTags(y)
  {
    var s := "<" + x + ">" + y;
    var q := |x| + 1;
    assert s[q] == '>' && s[0] == '<';
    assert forall k :: 1 <= k < q ==> s[k] == x[k - 1];
    var r := IndexOf(s, '>').value;
    assert r == q;
    assert s[q + 1..] == y;
  }

  lemma ItalStrip()
    ensures StripTags("<i>ital</i>") == "ital"
  {
    assert "<i>ital</i>" == "<" + "i" + ">" + ("ital" + ("<" + "/i" + ">" + ""));
    StripTagsDropsTag("i", "ital" + ("<" + "/i" + ">" + ""));
    StripTagsPlainPrefix("ital", "<" + "/i" + ">" + "");
    StripTagsDropsTag("/i", "");
    assert "ital" + [] == "ital";
  }

  /** "plain <i>ital</i> more" gives "plain ", an italic "ital" and " more". */
  lemma TokenizeExample()
    ensures Tokenize("plain <i>ital</i> more", false) ==
            [Plain("plain "), Italic("ital"), Plain(" more")]
  {
    var x, y, z := "plain ", "<i>ital</i>", " more";
    assert "plain <i>ital</i> more" == x + y + z;
    ItalPiece();
    TagSplitOne(x, y, z);
    TokenizeOfThree(x + y + z, false, x, y, z);
    ItalStrip();
    assert RunOf(y, false) == Italic("ital");
    TagSplitOfPlain(x);
    PlainUnflagged(x);
    StripTagsOfPlain(x);
    assert RunOf(x, false) == Plain(x);
    TagSplitOfPlain(z);
    PlainUnflagged(z);
    StripTagsOfPlain(z);
    assert RunOf(z, false) == Plain(z);
  }
}

=== FILE: names.dfy ===
/** The author and affiliation lines of a record, and the two anchored
    regular expressions that split them:

      author       ^([^\)]+)((?:\(.+\))*)$
      affiliation  ^((?:\(.+\))*)(.+)$

    Each is specified by the strings it accepts and the groups it reports.
    `.` does not match a newline and `$` matches at the end of the text or
    just before a final newline. A backtracking matcher tries the first
    group longest-first, and for each candidate length at most one end
    position can complete the match, so the reported first group is the
    LONGEST one for which the whole pattern matches. */
module Names {
  import opened PyText
  import opened Wrappers
  import Parens

  /** `$` succeeds at position `e` of `s`. */
  predicate EndOk(s: string, e: int) {
    e == |s| || (0 <= e && e + 1 == |s| && s[e] == '\n')
  }

  /** The language of `(?:\(.+\))*`: nothing, or an opening parenthesis,
      at least one character and a closing parenthesis, without newlines
      (one `\(.+\)` already spans any sequence of such groups). */
  predicate ParenRun(t: string) {
    t == [] || (|t| >= 3 && t[0] == '(' && t[|t| - 1] == ')' && '\n' !in t)
  }

  /** The author pattern matches `s` with group 1 `s[..k]`, group 2 `s[k..e]`. */
  predicate AuthorParse(s: string, k: int, e: int) {
    && 1 <= k <= e <= |s|
    && EndOk(s, e)
    && ')' !in s[..k]
    && ParenRun(s[k..e])
  }

  /** The affiliation pattern matches `s` with group 1 `s[..k]`, group 2 `s[k..e]`. */
  predicate AffiliationParse(s: string, k: int, e: int) {
    && 0 <= k < e <= |s|
    && EndOk(s, e)
    && ParenRun(s[..k])
    && '\n' !in s[k..e]
  }

  /** The two groups a successful match reports. */
  datatype Groups = Groups(first: string, second: string)

  /** The ends `$` allows: `|s|`, and `|s| - 1` before a final newline. */
  function AltEnd(s: string): nat {
    if |s| > 0 && s[|s| - 1] == '\n' then |s| - 1 else |s|
  }

  /** The longest first group of at most `k` characters for which the author
      pattern matches, with its end. */
  function AuthorSearch(s: string, k: nat): (r: Option<(nat, nat)>)
    requires k <= |s|
    ensures r.Some? ==> r.value.0 <= k && AuthorParse(s, r.value.0, r.value.1)
    ensures r.Some? ==> forall k', e :: r.value.0 < k' <= k ==> !AuthorParse(s, k', e)
    ensures r.None? ==> forall k', e :: k' <= k ==> !AuthorParse(s, k', e)
  {
    if k == 0 then None
    else if AuthorParse(s, k, |s|) then Some((k, |s|))
    else if k <= AltEnd(s) && AuthorParse(s, k, AltEnd(s)) then Some((k, AltEnd(s)))
    else AuthorSearch(s, k - 1)
  }

  /** `exreg4author.match(s)`: the groups of the match, or None when the
      pattern does not match (the generator then fails on `m.group`). */
  function MatchAuthor(s: string): (r: Option<Groups>)
    ensures r.None? <==> forall k, e :: !AuthorParse(s, k, e)
    ensures r.Some? ==> exists k, e :: && AuthorParse(s, k, e)
                                      && r.value == Groups(s[..k], s[k..e])
                                      && forall k', e' :: AuthorParse(s, k', e') ==> k' <= k
  {
    match AuthorSearch(s, |s|)
    case None => None
    case Some((k, e)) => Some(Groups(s[..k], s[k..e]))
  }

  /** The longest first group of at most `k` characters for which the
      affiliation pattern matches, with its end. */
  function AffiliationSearch(s: string, k: nat): (r: Option<(nat, nat)>)
    requires k <= |s|
    ensures r.Some? ==> r.value.0 <= k && AffiliationParse(s, r.value.0, r.value.1)
    ensures r.Some? ==> forall k', e :: r.value.0 < k' <= k ==> !AffiliationParse(s, k', e)
    ensures r.None? ==> forall k', e :: 0 <= k' <= k ==> !AffiliationParse(s, k', e)
    decreases k
  {
    if AffiliationParse(s, k, |s|) then Some((k, |s|))
    else if k <= AltEnd(s) && AffiliationParse(s, k, AltEnd(s)) then Some((k, AltEnd(s)))
    else if k == 0 then None
    else AffiliationSearch(s, k - 1)
  }

  /** `exreg4affiliation.match(s)`, as `MatchAuthor`. */
  function MatchAffiliation(s: string): (r: Option<Groups>)
    ensures r.None? <==> forall k, e :: !AffiliationParse(s, k, e)
    ensures r.Some? ==> exists k, e :: && AffiliationParse(s, k, e)
                                      && r.value == Groups(s[..k], s[k..e])
                                      && forall k', e' :: AffiliationParse(s, k', e') ==> k' <= k
  {
    match AffiliationSearch(s, |s|)
    case None => None
    case Some((k, e)) => Some(Groups(s[..k], s[k..e]))
  }

  /** An author: the stripped first group (the name as cited) and the
      normalised reference numbers of the second group. */
  datatype Author = Author(name: string, refs: string)

  /** An affiliation: its normalised leading reference numbers and name. */
  datatype Affiliation = Affiliation(refs: string, name: string)

  const NoBreakSpace: char := '\U{A0}'

  /** One author line; None where the generator fails on `m.group`. */
  function ParseAuthor(line: string): (r: Option<Author>)
    ensures r.None? <==> MatchAuthor(line).None?
    ensures r.Some? ==> ')' !in r.value.name && Trimmed(r.value.name) && Trimmed(r.value.refs)
  {
    match MatchAuthor(line)
    case None => None
    case Some(g) =>
      StripFactor(g.first);
      Parens.RemoveParenthesesTrimmed(Strip(g.second));
      Some(Author(Strip(g.first), Parens.RemoveParentheses(Strip(g.second))))
  }

  /** One affiliation line; None where the generator fails on `m.group`. */
  function ParseAffiliation(line: string): (r: Option<Affiliation>)
    ensures r.None? <==> MatchAffiliation(line).None?
    ensures r.Some? ==> Trimmed(r.value.refs) && Trimmed(r.value.name)
  {
    match MatchAffiliation(line)
    case None => None
    case Some(g) =>
      Parens.RemoveParenthesesTrimmed(Strip(g.first));
      Some(Affiliation(Parens.RemoveParentheses(Strip(g.first)), Strip(g.second)))
  }

  /** The name as the author paragraph shows it: every space becomes a
      no-break space, so a name never wraps across lines. */
  function DisplayName(a: Author): (r: string)
    ensures |r| == |a.name| && ' ' !in r
    ensures forall i :: 0 <= i < |r| ==> r[i] == if a.name[i] == ' ' then NoBreakSpace else a.name[i]
  {
    ReplaceCharRemoves(a.name, ' ', NoBreakSpace);
    ReplaceChar(a.name, ' ', NoBreakSpace)
  }

  /** Every character of `Strip(s)` occurs in `s`. */
  lemma StripFactor(s: string)
    ensures forall c :: c in Strip(s) ==> c in s
  {
    var i, j := StripIsTrim(s);
    assert forall k :: 0 <= k < j - i ==> Strip(s)[k] == s[i + k];
  }

  /** Once the first group is fixed, `$` leaves at most one end for the
      author pattern. */
  lemma AuthorEndUnique(s: string, k: int, e: int, e': int)
    requires AuthorParse(s, k, e) && AuthorParse(s, k, e')
    ensures e == e'
  {
  }

  /** A match whose first group no longer one can beat is the one reported. */
  lemma MatchAuthorIs(s: string, k: int, e: int)
    requires AuthorParse(s, k, e)
    requires forall k', e' :: AuthorParse(s, k', e') ==> k' <= k
    ensures MatchAuthor(s) == Some(Groups(s[..k], s[k..e]))
  {
    var k0, e0 :| && AuthorParse(s, k0, e0)
                  && MatchAuthor(s).value == Groups(s[..k0], s[k0..e0])
                  && forall k', e' :: AuthorParse(s, k', e') ==> k' <= k0;
    assert k0 == k;
    AuthorEndUnique(s, k, e, e0);
  }

  /** Once the first group is fixed, `$` leaves at most one end for the
      affiliation pattern. */
  lemma AffiliationEndUnique(s: string, k: int, e: int, e': int)
    requires AffiliationParse(s, k, e) && AffiliationParse(s, k, e')
    ensures e == e'
  {
  }

  /** A match whose first group no longer one can beat is the one reported. */
  lemma MatchAffiliationIs(s: string, k: int, e: int)
    requires AffiliationParse(s, k, e)
    requires forall k', e' :: AffiliationParse(s, k', e') ==> k' <= k
    ensures MatchAffiliation(s) == Some(Groups(s[..k], s[k..e]))
  {
    var k0, e0 :| && AffiliationParse(s, k0, e0)
                  && MatchAffiliation(s).value == Groups(s[..k0], s[k0..e0])
                  && forall k', e' :: AffiliationParse(s, k', e') ==> k' <= k0;
    assert k0 == k;
    AffiliationEndUnique(s, k, e, e0);
  }

  /** A line without any closing parenthesis is all name: group 1 is the
      whole line and the reference list is empty. */
  lemma AuthorWithoutReferences(line: string)
    requires line != [] && ')' !in line
    ensures MatchAuthor(line) == Some(Groups(line, []))
    ensures ParseAuthor(line) == Some(Author(Strip(line), []))
  {
    assert line[..|line|] == line;
    assert AuthorParse(line, |line|, |line|);
    MatchAuthorIs(line, |line|, |line|);
    var e := line[|line|..];
    Parens.RemoveParenthesesEmpty(e);
    assert Strip(e) == e by {
      Parens.GroupSplitOfEmpty(e);
    }
  }

  /** The sample author line used by the examples below. */
  const JaneDoeLine: string := "Jane Doe (1)(2)"

  /** The pattern matches the sample line with the name group ending
      before the first "(". */
  lemma JaneDoeParses()
    ensures AuthorParse(JaneDoeLine, 9, 15)
    ensures JaneDoeLine[..9] == "Jane Doe " && JaneDoeLine[9..15] == "(1)(2)"
  {
    var s := JaneDoeLine;
    assert s[9..15] == "(1)(2)";
    assert s[..9] == "Jane Doe ";
  }

  /** No longer name group works: the name group must stop before the
      first ")" and the reference group must start with "(". */
  lemma JaneDoeLongest(k': int, e': int)
    requires AuthorParse(JaneDoeLine, k', e')
    ensures k' <= 9
  {
    var s := JaneDoeLine;
    assert s[11] == ')';
    assert s[k'..e'][0] == s[k'];
    assert s[10] == '1';
  }

  lemma JaneDoeMatch()
    ensures MatchAuthor(JaneDoeLine) == Some(Groups("Jane Doe ", "(1)(2)"))
  {
    JaneDoeParses();
    forall k', e' | AuthorParse(JaneDoeLine, k', e')
      ensures k' <= 9
    {
      JaneDoeLongest(k', e');
    }
    MatchAuthorIs(JaneDoeLine, 9, 15);
  }

  /** The display form of a name: spaces become no-break spaces. */
  lemma DisplayNameOf(name: string, refs: string, want: string)
    requires name == "Jane Doe" && want == "Jane\U{A0}Doe"
    ensures DisplayName(Author(name, refs)) == want
  {
    var r := DisplayName(Author(name, refs));
    assert |r| == |want|;
    forall i | 0 <= i < |r|
      ensures r[i] == want[i]
    {
    }
  }

  lemma JaneDoeDisplay()
    ensures DisplayName(Author("Jane Doe", "1, 2")) == "Jane\U{A0}Doe"
  {
    DisplayNameOf("Jane Doe", "1, 2", "Jane\U{A0}Doe");
  }

  /** An author line whose reference group is two adjacent groups `(a)(b)`
      has the references "a, b". */
  lemma ParseAuthorOfTwoGroups(line: string, g1: string, g2: string, a: string, b: string,
                                name: string, refs: string)
    requires MatchAuthor(line) == Some(Groups(g1, g2))
    requires IsWordPair(g2, a, b)
    requires Strip(g1) == name && refs == a + ", " + b
    ensures ParseAuthor(line) == Some(Author(name, refs))
  {
    StripTrimmed(g2);
    Parens.RemoveParenthesesOfTwoGroups(g2, a, b);
  }

  /** `t` is "(a)(b)" for two words `a` and `b`. */
  predicate IsWordPair(t: string, a: string, b: string) {
    Parens.IsWord(a) && Parens.IsWord(b) && t == ("(" + a + ")") + ("(" + b + ")")
  }

  lemma JaneDoeStrip()
    ensures Strip("Jane Doe ") == "Jane Doe"
  {
    var t := "Jane Doe ";
    assert IsTrim(t, 0, 8) by {
      assert t[8..] == [' '];
    }
    StripUnique(t, 0, 8);
    assert t[0..8] == "Jane Doe";
  }

  lemma JaneDoeRefs()
    ensures IsWordPair("(1)(2)", "1", "2")
  {
  }

  /** "Jane Doe (1)(2)": the name is "Jane Doe" (shown as "Jane\u00A0Doe")
      and the references are "1, 2". */
  lemma JaneDoeExample()
    ensures ParseAuthor(JaneDoeLine) == Some(Author("Jane Doe", "1, 2"))
    ensures DisplayName(Author("Jane Doe", "1, 2")) == "Jane\U{A0}Doe"
  {
    JaneDoeMatch();
    JaneDoeRefs();
    JaneDoeStrip();
    ParseAuthorOfTwoGroups(JaneDoeLine, "Jane Doe ", "(1)(2)", "1", "2", "Jane Doe", "1, 2");
    JaneDoeDisplay();
  }

  /** The sample affiliation line used by the examples below. */
  const DeptLine: string := "(1)Dept of X"

  /** The pattern matches the sample line with the reference group "(1)". */
  lemma DeptParses()
    ensures AffiliationParse(DeptLine, 3, 12)
    ensures DeptLine[..3] == "(1)" && DeptLine[3..12] == "Dept of X"
  {
    var s := DeptLine;
    assert s[..3] == "(1)";
    assert s[3..12] == "Dept of X";
  }

  /** No longer reference group works: a non-empty one ends with ")", and
      the only ")" is at index 2. */
  lemma DeptLongest(k': int, e': int)
    requires AffiliationParse(DeptLine, k', e')
    ensures k' <= 3
  {
    var s := DeptLine;
    if k' > 0 {
      assert s[..k'][k' - 1] == s[k' - 1];
      assert s[k' - 1] == ')';
    }
  }

  lemma DeptMatch()
    ensures MatchAffiliation(DeptLine) == Some(Groups("(1)", "Dept of X"))
  {
    DeptParses();
    forall k', e' | AffiliationParse(DeptLine, k', e')
      ensures k' <= 3
    {
      DeptLongest(k', e');
    }
    MatchAffiliationIs(DeptLine, 3, 12);
  }

  lemma DeptStrip()
    ensures Strip("(1)") == "(1)"
    ensures Strip("Dept of X") == "Dept of X"
    ensures Parens.RemoveParentheses("(1)") == "1"
  {
    StripTrimmed("(1)");
    StripTrimmed("Dept of X");
    Parens.RemoveParenthesesOfGroup("(1)", "1");
  }

  /** "(1)Dept of X": the affiliation has reference "1" and name "Dept of X". */
  lemma DeptExample()
    ensures ParseAffiliation(DeptLine) == Some(Affiliation("1", "Dept of X"))
  {
    DeptMatch();
    DeptStrip();
  }
}

=== FILE: parens.dfy ===
/** Parenthesised reference groups such as `(1)(2)`: the splitter behind
    `re.split(r'\((\w+)\)', text)` and `re.split(r'(\(\w+\))', text)`, and
    the reference-number normaliser `_remove_parentheses`. */
module Parens {
  import opened PyText
  import opened Wrappers

  /** The regular-expression class `\w`, for ASCII text. */
  predicate IsWordChar(c: char) {
    ('a' <= c <= 'z') || ('A' <= c <= 'Z') || ('0' <= c <= '9') || c == '_'
  }

  /** A non-empty run of word characters. */
  predicate IsWord(t: string) {
    |t| > 0 && forall k :: 0 <= k < |t| ==> IsWordChar(t[k])
  }

  /** `\((\w+)\)` matches `s[i..j + 1]`: an opening parenthesis at `i`, a
      closing one at `j`, and only word characters (at least one) between. */
  predicate GroupSpan(s: string, i: int, j: int) {
    && 0 <= i && i + 2 <= j < |s|
    && s[i] == '(' && s[j] == ')'
    && forall k :: i < k < j ==> IsWordChar(s[k])
  }

  /** No group occurs anywhere in `t`. */
  ghost predicate NoGroup(t: string) {
    forall i, j :: !GroupSpan(t, i, j)
  }

  /** The end of the run of word characters that starts at `k`. */
  function WordEnd(s: string, k: nat): (e: nat)
    requires k <= |s|
    ensures k <= e <= |s|
    ensures forall m :: k <= m < e ==> IsWordChar(s[m])
    ensures e == |s| || !IsWordChar(s[e])
    decreases |s| - k
  {
    if k < |s| && IsWordChar(s[k]) then WordEnd(s, k + 1) else k
  }

  /** The closing position of the group that starts at `i`, if one does. */
  function GroupAt(s: string, i: nat): (r: Option<nat>)
    requires i < |s|
    ensures r.Some? ==> GroupSpan(s, i, r.value)
    ensures r.None? ==> forall j :: !GroupSpan(s, i, j)
  {
    var e := WordEnd(s, i + 1);
    if s[i] == '(' && i + 2 <= e < |s| && s[e] == ')' then Some(e) else None
  }

  /** The leftmost group starting at or after `from`, as (open, close). */
  function FirstGroupFrom(s: string, from: nat): (r: (bool, nat, nat))
    requires from <= |s|
    ensures r.0 ==> from <= r.1 && GroupSpan(s, r.1, r.2)
    ensures r.0 ==> forall i, j :: from <= i < r.1 ==> !GroupSpan(s, i, j)
    ensures !r.0 ==> forall i, j :: from <= i ==> !GroupSpan(s, i, j)
    decreases |s| - from
  {
    if from == |s| then (false, 0, 0)
    else match GroupAt(s, from)
      case Some(j) => (true, from, j)
      case None => FirstGroupFrom(s, from + 1)
  }

  /** `re.split(r'\((\w+)\)', s)`: the text between groups at even indices,
      the contents of each group (without its parentheses) at odd ones. */
  function GroupSplit(s: string): (r: seq<string>)
    ensures |r| % 2 == 1
    decreases |s|
  {
    var (found, i, j) := FirstGroupFrom(s, 0);
    if found then [s[..i], s[i + 1..j]] + GroupSplit(s[j + 1..]) else [s]
  }

  /** Puts the parentheses back around the odd pieces and concatenates. */
  function Reassemble(parts: seq<string>): string {
    if |parts| == 0 then []
    else if |parts| == 1 then parts[0]
    else parts[0] + "(" + parts[1] + ")" + Reassemble(parts[2..])
  }

  /** A group inside a prefix of `s` is a group of `s`. */
  lemma GroupSpanPrefix(s: string, n: nat, i: int, j: int)
    requires n <= |s| && GroupSpan(s[..n], i, j)
    ensures GroupSpan(s, i, j)
  {
    assert forall k :: 0 <= k < n ==> s[..n][k] == s[k];
  }

  /** A prefix that ends before the leftmost group holds no group. */
  lemma NoGroupBefore(s: string, n: nat)
    requires n <= |s|
    requires forall a, b :: 0 <= a < n ==> !GroupSpan(s, a, b)
    ensures NoGroup(s[..n])
  {
    forall a, b | GroupSpan(s[..n], a, b)
      ensures false
    {
      GroupSpanPrefix(s, n, a, b);
    }
  }

  /** A group inside a suffix of `s` is a group of `s`, shifted. */
  lemma GroupSpanSuffix(s: string, n: nat, i: int, j: int)
    requires n <= |s| && GroupSpan(s[n..], i, j)
    ensures GroupSpan(s, n + i, n + j)
  {
    assert forall k :: 0 <= k < |s| - n ==> s[n..][k] == s[n + k];
  }

  /** Odd pieces are non-empty words, even pieces hold no group. */
  ghost predicate Alternates(pieces: seq<string>) {
    && (forall k :: 0 <= k < |pieces| && k % 2 == 1 ==> IsWord(pieces[k]))
    && (forall k :: 0 <= k < |pieces| && k % 2 == 0 ==> NoGroup(pieces[k]))
  }

  /** The split alternates, so it is exactly the leftmost-first scan of
      `re.split`. */
  lemma {:induction false} GroupSplitShape(s: string)
    ensures Alternates(GroupSplit(s))
    decreases |s|
  {
    var (found, i, j) := FirstGroupFrom(s, 0);
    if found {
      var rest := s[j + 1..];
      GroupSplitShape(rest);
      var w := s[i + 1..j];
      assert GroupSplit(s) == [s[..i], w] + GroupSplit(rest);
      assert IsWord(w) by {
        assert forall k :: 0 <= k < |w| ==> w[k] == s[i + 1 + k];
      }
      NoGroupBefore(s, i);
      AlternatesCons(s[..i], w, GroupSplit(rest));
    } else {
      assert GroupSplit(s) == [s];
    }
  }

  /** A group-free piece and a word in front of an alternating split. */
  lemma AlternatesCons(p: string, w: string, tail: seq<string>)
    requires NoGroup(p) && IsWord(w) && Alternates(tail)
    ensures Alternates([p, w] + tail)
  {
    var r := [p, w] + tail;
    assert forall k :: 2 <= k < |r| ==> r[k] == tail[k - 2] && (k % 2 == (k - 2) % 2);
  }

  /** Putting the parentheses back reproduces the text that was split. */
  lemma {:induction false} GroupSplitRoundTrip(s: string)
    ensures Reassemble(GroupSplit(s)) == s
    decreases |s|
  {
    var (found, i, j) := FirstGroupFrom(s, 0);
    if found {
      var rest := s[j + 1..];
      GroupSplitRoundTrip(rest);
      ReassembleCons(s[..i], s[i + 1..j], GroupSplit(rest));
      GroupAround(s, i, j);
    }
  }

  /** `Reassemble` of a piece, a word and the rest. */
  lemma ReassembleCons(p: string, w: string, tail: seq<string>)
    ensures Reassemble([p, w] + tail) == p + "(" + w + ")" + Reassemble(tail)
  {
    assert ([p, w] + tail)[2..] == tail;
  }

  /** A group cuts `s` into the text before it, its word and the text
      after it. */
  lemma GroupAround(s: string, i: nat, j: nat)
    requires GroupSpan(s, i, j)
    ensures s == s[..i] + "(" + s[i + 1..j] + ")" + s[j + 1..]
  {
  }

  /** The stripped, non-empty pieces, in order. */
  function Items(pieces: seq<string>): seq<string> {
    if |pieces| == 0 then [] else Kept(pieces[0]) + Items(pieces[1..])
  }

  /** One piece, stripped, or nothing when it strips to the empty text. */
  function Kept(piece: string): seq<string> {
    if |Strip(piece)| == 0 then [] else [Strip(piece)]
  }

  /** Every item is non-empty and free of surrounding whitespace. */
  predicate AllKept(items: seq<string>) {
    forall k :: 0 <= k < |items| ==> |items[k]| > 0 && Trimmed(items[k])
  }

  /** The items are non-empty and free of surrounding whitespace. */
  lemma {:induction false} ItemsKept(pieces: seq<string>)
    ensures AllKept(Items(pieces))
  {
    if |pieces| > 0 {
      ItemsKept(pieces[1..]);
      var rest := Items(pieces[1..]);
      var h := Strip(pieces[0]);
      if |h| > 0 {
        KeptCons(h, rest);
      }
    }
  }

  /** A kept item in front of kept items. */
  lemma KeptCons(h: string, rest: seq<string>)
    requires |h| > 0 && Trimmed(h) && AllKept(rest)
    ensures AllKept([h] + rest)
  {
    var r := [h] + rest;
    assert forall k :: 1 <= k < |r| ==> r[k] == rest[k - 1];
  }

  /** `_remove_parentheses`: the pieces of `re.split(r'\((\w+)\)', text)`,
      each stripped, empty ones dropped, joined with ", ". */
  function RemoveParentheses(text: string): string {
    Join(Items(GroupSplit(text)), ", ")
  }

  /** The result never begins or ends with whitespace, so in particular it
      never ends with the separator ", ". */
  lemma RemoveParenthesesTrimmed(text: string)
    ensures Trimmed(RemoveParentheses(text))
  {
    var items := Items(GroupSplit(text));
    ItemsKept(GroupSplit(text));
    JoinTrimmed(items, ", ");
  }

  /** Joining non-empty trimmed items gives a trimmed text, whatever the
      separator. */
  lemma JoinTrimmed(items: seq<string>, sep: string)
    requires AllKept(items)
    ensures Trimmed(Join(items, sep))
  {
    JoinEnds(items, sep);
    if |items| > 0 {
      var last := items[|items| - 1];
      assert Trimmed(items[0]) && Trimmed(last);
    }
  }

  /** The join of non-empty items starts with the first item's first
      character and ends with the last item's last character. */
  lemma {:induction false} JoinEnds(items: seq<string>, sep: string)
    requires forall k :: 0 <= k < |items| ==> |items[k]| > 0
    ensures |items| == 0 <==> |Join(items, sep)| == 0
    ensures |items| > 0 ==> Join(items, sep)[0] == items[0][0]
    ensures |items| > 0 ==> Join(items, sep)[|Join(items, sep)| - 1] == items[|items| - 1][|items[|items| - 1]| - 1]
  {
    if |items| > 1 {
      JoinEnds(items[1..], sep);
      var tail := Join(items[1..], sep);
      assert Join(items, sep) == items[0] + sep + tail;
    }
  }

  /** The items of two lists of pieces, one after the other. */
  lemma {:induction false} ItemsAppend(a: seq<string>, b: seq<string>)
    ensures Items(a + b) == Items(a) + Items(b)
    decreases |a|
  {
    if |a| == 0 {
      assert a + b == b;
    } else {
      ItemsAppend(a[1..], b);
      ItemsAppendStep(a, b);
    }
  }

  lemma ItemsAppendStep(a: seq<string>, b: seq<string>)
    requires |a| > 0 && Items(a[1..] + b) == Items(a[1..]) + Items(b)
    ensures Items(a + b) == Items(a) + Items(b)
  {
    ItemsFirst(a + b);
    AppendFirst(a, b);
    ItemsFirst(a);
    ConcatAssoc(Kept(a[0]), Items(a[1..]), Items(b));
  }

  /** `Items` of a non-empty list, by its first piece. */
  lemma ItemsFirst(a: seq<string>)
    requires |a| > 0
    ensures Items(a) == Kept(a[0]) + Items(a[1..])
  {
  }

  /** One more piece either leaves the items alone (it strips to nothing)
      or appends its stripped text. */
  lemma ItemsSnoc(a: seq<string>, x: string)
    ensures Items(a + [x]) == Items(a) + Kept(x)
  {
    ItemsAppend(a, [x]);
    assert [x] == [x] + a[..0];
    ItemsCons(x, a[..0]);
  }

  lemma {:induction false} JoinSnoc(items: seq<string>, x: string, sep: string)
    requires |items| > 0
    ensures Join(items + [x], sep) == Join(items, sep) + sep + x
  {
    if |items| > 1 {
      JoinSnoc(items[1..], x, sep);
      assert (items + [x])[1..] == items[1..] + [x];
    } else {
      assert items + [x] == [items[0], x];
    }
  }

  /** One turn of the generator's loop keeps `num` equal to the join of the
      items seen so far. */
  lemma LoopStep(nums: seq<string>, k: nat, num: string) returns (num': string)
    requires k < |nums| && num == Join(Items(nums[..k]), ", ")
    ensures num' == Join(Items(nums[..k + 1]), ", ")
    ensures num' == if |Strip(nums[k])| == 0 then num else if |num| == 0 then Strip(nums[k]) else num + ", " + Strip(nums[k])
  {
    var seen, x := nums[..k], nums[k];
    assert nums[..k + 1] == seen + [x];
    var items := Items(seen);
    var n := Strip(x);
    ItemsKept(seen);
    ItemsSnoc(seen, x);
    JoinEnds(items, ", ");
    if |n| == 0 {
      assert Items(seen + [x]) == items;
      num' := num;
    } else if |items| == 0 {
      assert Items(seen + [x]) == [n];
      num' := n;
    } else {
      assert Items(seen + [x]) == items + [n];
      JoinSnoc(items, n, ", ");
      num' := num + ", " + n;
    }
  }

  /** The loop of `_remove_parentheses` as written: it appends ", " only once
      something has been accumulated, and computes exactly the join. */
  method RemoveParenthesesLoop(text: string) returns (num: string)
    ensures num == RemoveParentheses(text)
  {
    var nums := GroupSplit(text);
    num := "";
    var k := 0;
    assert |Items(nums[..k])| == 0;
    while k < |nums|
      invariant 0 <= k <= |nums|
      invariant num == Join(Items(nums[..k]), ", ")
    {
      var n := Strip(nums[k]);
      ghost var next := LoopStep(nums, k, num);
      if |n| > 0 {
        if |num| > 0 {
          num := num + ", ";
        }
        num := num + n;
      }
      assert num == next;
      k := k + 1;
    }
    assert nums[..k] == nums;
  }

  /** `re.split(r'(\(\w+\))', s)`: the same split, but the captured group
      keeps its parentheses. */
  function SuperSplit(s: string): (r: seq<string>)
    ensures |r| == |GroupSplit(s)|
    ensures forall k :: 0 <= k < |r| ==> r[k] == (if k % 2 == 1 then "(" + GroupSplit(s)[k] + ")" else GroupSplit(s)[k])
  {
    var g := GroupSplit(s);
    seq(|g|, k requires 0 <= k < |g| => if k % 2 == 1 then "(" + g[k] + ")" else g[k])
  }

  /** The pieces of `SuperSplit` concatenate back to the input. */
  lemma SuperSplitRoundTrip(s: string)
    ensures Concat(SuperSplit(s)) == s
  {
    GroupSplitRoundTrip(s);
    ConcatWrapped(GroupSplit(s));
  }

  lemma {:induction false} ConcatWrapped(g: seq<string>)
    requires |g| % 2 == 1
    ensures Concat(seq(|g|, k requires 0 <= k < |g| => if k % 2 == 1 then "(" + g[k] + ")" else g[k])) == Reassemble(g)
    decreases |g|
  {
    var w := seq(|g|, k requires 0 <= k < |g| => if k % 2 == 1 then "(" + g[k] + ")" else g[k]);
    if |g| > 1 {
      var g' := g[2..];
      ConcatWrapped(g');
      var w' := seq(|g'|, k requires 0 <= k < |g'| => if k % 2 == 1 then "(" + g'[k] + ")" else g'[k]);
      assert w[2..] == w' by {
        forall k | 0 <= k < |w'|
          ensures w[2..][k] == w'[k]
        {
          assert w[2..][k] == w[k + 2];
          assert (k + 2) % 2 == k % 2;
        }
      }
      assert w[0] == g[0] && w[1] == "(" + g[1] + ")";
      assert w[1..][1..] == w[2..];
      assert Concat(w[1..]) == w[1] + Concat(w[2..]);
      assert Concat(w) == w[0] + Concat(w[1..]);
    } else {
      assert w == [g[0]];
      assert |Concat(w[1..])| == 0;
    }
  }

  /** A word has no whitespace, so stripping leaves it alone. */
  lemma StripWord(t: string)
    requires IsWord(t)
    ensures Strip(t) == t
  {
    assert !IsSpace(t[0]) && !IsSpace(t[|t| - 1]);
    assert LStrip(t) == t;
  }

  /** The run of word characters from `k` ends at the first non-word
      character. */
  lemma {:induction false} WordEndAt(s: string, k: nat, j: nat)
    requires k <= j < |s| && !IsWordChar(s[j])
    requires forall m :: k <= m < j ==> IsWordChar(s[m])
    ensures WordEnd(s, k) == j
    decreases j - k
  {
    if k < j {
      WordEndAt(s, k + 1, j);
    }
  }

  /** A text that starts with a group splits there first. */
  lemma GroupSplitAtStart(s: string, j: nat)
    requires GroupSpan(s, 0, j)
    ensures GroupSplit(s) == [s[..0], s[1..j]] + GroupSplit(s[j + 1..])
  {
    WordEndAt(s, 1, j);
    assert GroupAt(s, 0) == Some(j);
    assert FirstGroupFrom(s, 0) == (true, 0, j);
  }

  /** Without an opening parenthesis from `from` on, no group is found. */
  lemma {:induction false} NoOpenNoGroup(s: string, from: nat)
    requires from <= |s|
    requires forall k :: from <= k < |s| ==> s[k] != '('
    ensures !FirstGroupFrom(s, from).0
    decreases |s| - from
  {
    if from < |s| {
      assert GroupAt(s, from) == None;
      NoOpenNoGroup(s, from + 1);
    }
  }

  /** Items of a list, one piece at a time. */
  lemma ItemsCons(x: string, rest: seq<string>)
    ensures Items([x] + rest) == Kept(x) + Items(rest)
  {
    assert ([x] + rest)[0] == x && ([x] + rest)[1..] == rest;
  }

  /** A text holding no group is a single piece, so it normalises to
      itself, stripped. */
  lemma RemoveParenthesesNoGroup(s: string)
    requires !FirstGroupFrom(s, 0).0
    ensures RemoveParentheses(s) == Strip(s)
  {
    assert GroupSplit(s) == [s];
    ItemsCons(s, []);
    assert [s] + [] == [s];
    if |Strip(s)| > 0 {
      assert Join([Strip(s)], ", ") == Strip(s);
    }
  }

  /** A text with no opening parenthesis normalises to itself, stripped. */
  lemma RemoveParenthesesNoOpen(s: string)
    requires '(' !in s
    ensures RemoveParentheses(s) == Strip(s)
  {
    NoOpenNoGroup(s, 0);
    RemoveParenthesesNoGroup(s);
  }

  /** The empty text normalises to the empty text. */
  lemma RemoveParenthesesEmpty(e: string)
    requires |e| == 0
    ensures RemoveParentheses(e) == e
  {
    RemoveParenthesesNoOpen(e);
  }

  /** The split of a text made of the group `(w)` and a rest. */
  lemma GroupSplitOfLeadingGroup(s: string, w: string, rest: string)
    requires IsWord(w) && s == ("(" + w + ")") + rest
    ensures GroupSplit(s) == [s[..0], w] + GroupSplit(rest)
  {
    var j := |w| + 1;
    WrappedParts(s, w, rest);
    GroupSplitAtStart(s, j);
  }

  /** Where the parts of `(w)` followed by a rest sit. */
  lemma WrappedParts(s: string, w: string, rest: string)
    requires IsWord(w) && s == ("(" + w + ")") + rest
    ensures GroupSpan(s, 0, |w| + 1)
    ensures s[1..|w| + 1] == w && s[|w| + 2..] == rest
  {
    assert forall k :: 0 < k < |w| + 1 ==> s[k] == w[k - 1];
  }

  /** The empty text splits into itself. */
  lemma GroupSplitOfEmpty(e: string)
    requires |e| == 0
    ensures GroupSplit(e) == [e] && Strip(e) == e
  {
    NoOpenNoGroup(e, 0);
  }

  /** A blank piece followed by a kept piece contributes that piece alone. */
  lemma ItemsBlankKept(e: string, w: string, rest: seq<string>)
    requires |Strip(e)| == 0 && Strip(w) == w && |w| > 0
    ensures Items([e, w] + rest) == [w] + Items(rest)
  {
    var p := [e, w] + rest;
    assert p[0] == e && p[1..] == [w] + rest;
    ItemsCons(w, rest);
  }

  /** One kept piece between blank ones is the only item. */
  lemma ItemsOfOnePiece(e: string, w: string)
    requires |Strip(e)| == 0 && Strip(w) == w && |w| > 0
    ensures Items([e, w] + [e]) == [w]
  {
    ItemsBlankKept(e, w, [e]);
    assert |Items([e])| == 0;
  }

  /** Two kept pieces between blank ones are the two items. */
  lemma ItemsOfTwoPieces(e: string, a: string, b: string)
    requires |Strip(e)| == 0 && Strip(a) == a && |a| > 0 && Strip(b) == b && |b| > 0
    ensures Items([e, a] + ([e, b] + [e])) == [a, b]
  {
    ItemsBlankKept(e, a, [e, b] + [e]);
    ItemsOfOnePiece(e, b);
  }

  /** Joining two parts puts the separator between them. */
  lemma JoinTwo(parts: seq<string>, sep: string)
    requires |parts| == 2
    ensures Join(parts, sep) == parts[0] + sep + parts[1]
  {
    assert Join(parts[1..], sep) == parts[1];
  }

  /** A text splitting into one kept piece between blank ones normalises
      to that piece. */
  lemma RemoveParenthesesOfOnePiece(s: string, e: string, w: string)
    requires GroupSplit(s) == [e, w] + [e]
    requires |Strip(e)| == 0 && Strip(w) == w && |w| > 0
    ensures RemoveParentheses(s) == w
  {
    ItemsOfOnePiece(e, w);
  }

  /** A text splitting into two kept pieces between blank ones normalises
      to the two pieces joined with ", ". */
  lemma RemoveParenthesesOfTwoPieces(s: string, e: string, a: string, b: string)
    requires GroupSplit(s) == [e, a] + ([e, b] + [e])
    requires |Strip(e)| == 0 && Strip(a) == a && |a| > 0 && Strip(b) == b && |b| > 0
    ensures RemoveParentheses(s) == a + ", " + b
  {
    ItemsOfTwoPieces(e, a, b);
    JoinTwo([a, b], ", ");
  }

  /** The split of a single group `(w)`, with the facts about its pieces
      that the normaliser needs. */
  lemma GroupSplitOfGroup(s: string, w: string)
    requires IsWord(w) && s == "(" + w + ")"
    ensures GroupSplit(s) == [s[..0], w] + [s[..0]]
    ensures |Strip(s[..0])| == 0 && Strip(w) == w && |w| > 0
  {
    var e := s[|s|..];
    assert s == ("(" + w + ")") + e;
    GroupSplitOfLeadingGroup(s, w, e);
    GroupSplitOfEmpty(e);
    assert s[..0] == e;
    StripWord(w);
  }

  /** A single reference group `(w)`, such as "(1)", normalises to its word
      `w`, such as "1". */
  lemma RemoveParenthesesOfGroup(s: string, w: string)
    requires IsWord(w) && s == "(" + w + ")"
    ensures RemoveParentheses(s) == w
  {
    GroupSplitOfGroup(s, w);
    RemoveParenthesesOfOnePiece(s, s[..0], w);
  }

  /** The split of two adjacent groups `(a)(b)`. */
  lemma GroupSplitOfTwoGroups(s: string, a: string, b: string)
    requires IsWord(a) && IsWord(b) && s == ("(" + a + ")") + ("(" + b + ")")
    ensures GroupSplit(s) == [s[..0], a] + ([s[..0], b] + [s[..0]])
  {
    var t := "(" + b + ")";
    GroupSplitOfLeadingGroup(s, a, t);
    var e := t[|t|..];
    assert t == ("(" + b + ")") + e;
    GroupSplitOfLeadingGroup(t, b, e);
    GroupSplitOfEmpty(e);
    assert t[..0] == e && s[..0] == e;
  }

  /** Words and the empty text are left alone by `strip()`, the empty text
      stripping to nothing. */
  lemma StripPieces(e: string, a: string, b: string)
    requires |e| == 0 && IsWord(a) && IsWord(b)
    ensures |Strip(e)| == 0 && Strip(a) == a && |a| > 0 && Strip(b) == b && |b| > 0
  {
    GroupSplitOfEmpty(e);
    StripWord(a);
    StripWord(b);
  }

  /** Two adjacent reference groups `(a)(b)`, such as "(1)(2)", normalise to
      "a, b", such as "1, 2". */
  lemma RemoveParenthesesOfTwoGroups(s: string, a: string, b: string)
    requires IsWord(a) && IsWord(b) && s == ("(" + a + ")") + ("(" + b + ")")
    ensures RemoveParentheses(s) == a + ", " + b
  {
    GroupSplitOfTwoGroups(s, a, b);
    StripPieces(s[..0], a, b);
    RemoveParenthesesOfTwoPieces(s, s[..0], a, b);
  }

  /** After a stretch without '(' the leftmost group is the one at its end. */
  lemma {:induction false} FirstGroupAfterPlain(s: string, from: nat, n: nat, j: nat)
    requires from <= n < |s| && GroupAt(s, n).Some? && GroupAt(s, n).value == j
    requires forall k :: from <= k < n ==> s[k] != '('
    ensures FirstGroupFrom(s, from) == (true, n, j)
    decreases n - from
  {
    if from < n {
      assert GroupAt(s, from).None?;
      FirstGroupAfterPlain(s, from + 1, n, j);
    }
  }

  /** Where the parts of a stretch `p` without '(', the group `(w)` and a
      rest sit. */
  lemma PlainGroupParts(s: string, p: string, w: string, rest: string)
    requires '(' !in p && IsWord(w) && s == p + (("(" + w + ")") + rest)
    ensures forall k :: 0 <= k < |p| ==> s[k] != '('
    ensures GroupSpan(s, |p|, |p| + |w| + 1)
    ensures s[..|p|] == p && s[|p| + 1..|p| + |w| + 1] == w && s[|p| + |w| + 2..] == rest
  {
    var n := |p|;
    assert s[n..] == ("(" + w + ")") + rest;
    WrappedParts(s[n..], w, rest);
    GroupSpanSuffix(s, n, 0, |w| + 1);
    assert forall k :: 0 <= k < n ==> s[k] == p[k];
  }

  /** The closing parenthesis of a group is where its word ends. */
  lemma GroupAtSpan(s: string, i: nat, j: nat)
    requires GroupSpan(s, i, j)
    ensures GroupAt(s, i).Some? && GroupAt(s, i).value == j
  {
    WordEndAt(s, i + 1, j);
  }

  /** The split starts with the text before the leftmost group and its
      word, and goes on with the split of what follows. */
  lemma GroupSplitAtFirst(s: string, n: nat, j: nat, p: string, w: string, rest: string)
    requires FirstGroupFrom(s, 0) == (true, n, j)
    requires s[..n] == p && s[n + 1..j] == w && s[j + 1..] == rest
    ensures GroupSplit(s) == [p, w] + GroupSplit(rest)
  {
  }

  /** The split of a stretch `p` without '(', the group `(w)` and a rest. */
  lemma GroupSplitAfterPlain(s: string, p: string, w: string, rest: string)
    requires '(' !in p && IsWord(w) && s == p + (("(" + w + ")") + rest)
    ensures GroupSplit(s) == [p, w] + GroupSplit(rest)
  {
    var n, j := |p|, |p| + |w| + 1;
    PlainGroupParts(s, p, w, rest);
    GroupAtSpan(s, n, j);
    FirstGroupAfterPlain(s, 0, n, j);
    GroupSplitAtFirst(s, n, j, p, w, rest);
  }

  /** The split of two groups with a stretch `m` without '(' between them. */
  lemma GroupSplitOfTwoGroupsAround(s: string, a: string, m: string, b: string)
    requires IsWord(a) && IsWord(b) && '(' !in m
    requires s == ("(" + a + ")") + (m + (("(" + b + ")") + []))
    ensures GroupSplit(s) == [s[..0], a] + ([m, b] + [s[..0]])
  {
    var t := m + (("(" + b + ")") + []);
    GroupSplitOfLeadingGroup(s, a, t);
    GroupSplitAfterPlain(t, m, b, []);
    GroupSplitOfEmpty([]);
    assert s[..0] == [];
  }

  /** Two kept pieces around a middle piece, between blank ends. */
  lemma ItemsAround(e: string, a: string, m: string, b: string)
    requires |Strip(e)| == 0 && Strip(a) == a && |a| > 0 && Strip(b) == b && |b| > 0
    ensures Items([e, a] + ([m, b] + [e])) == [a] + Kept(m) + [b]
  {
    ItemsBlankKept(e, a, [m, b] + [e]);
    ItemsCons(m, [b] + [e]);
    assert [m, b] + [e] == [m] + ([b] + [e]);
    ItemsCons(b, [e]);
    ItemsCons(e, []);
    assert Items([e]) == [];
  }

  /** Joining three parts puts the separator between each two. */
  lemma JoinThree(parts: seq<string>, sep: string)
    requires |parts| == 3
    ensures Join(parts, sep) == parts[0] + sep + parts[1] + sep + parts[2]
  {
    assert parts[1..][1..] == [parts[2]];
    JoinTwo(parts[1..], sep);
  }

  /** The items of two groups around `m`, joined. */
  lemma JoinAround(a: string, m: string, b: string)
    ensures Blank(m) ==> Join([a] + Kept(m) + [b], ", ") == a + ", " + b
    ensures !Blank(m) ==> Join([a] + Kept(m) + [b], ", ") == a + ", " + Strip(m) + ", " + b
  {
    StripEmptyIffBlank(m);
    if Blank(m) {
      assert [a] + Kept(m) + [b] == [a, b];
      JoinTwo([a, b], ", ");
    } else {
      assert [a] + Kept(m) + [b] == [a, Strip(m), b];
      JoinThree([a, Strip(m), b], ", ");
    }
  }

  /** Two groups `(a)` and `(b)` with any text `m` without '(' between
      them: a blank `m`, as in "(1) (2)", gives "a, b" just as adjacent
      groups do; any other `m` becomes an item of its own, so "(1), (2)"
      gives "1, ,, 2". */
  lemma RemoveParenthesesOfTwoGroupsAround(s: string, a: string, m: string, b: string)
    requires IsWord(a) && IsWord(b) && '(' !in m
    requires s == ("(" + a + ")") + (m + (("(" + b + ")") + []))
    ensures Blank(m) ==> RemoveParentheses(s) == a + ", " + b
    ensures !Blank(m) ==> RemoveParentheses(s) == a + ", " + Strip(m) + ", " + b
  {
    GroupSplitOfTwoGroupsAround(s, a, m, b);
    StripPieces(s[..0], a, b);
    ItemsAround(s[..0], a, m, b);
    JoinAround(a, m, b);
  }

  /** A comma-separated list in one pair of parentheses, such as "(1,2)",
      is no group at all (',' is not a word character), so it is returned
      as it is. */
  lemma RemoveParenthesesCommaGroup(s: string, a: string, b: string)
    requires IsWord(a) && IsWord(b) && s == "(" + a + "," + b + ")"
    ensures RemoveParentheses(s) == s
  {
    CommaGroupNotAGroup(s, a, b);
    CommaGroupOpensOnce(s, a, b);
    NoOpenNoGroup(s, 1);
    assert !FirstGroupFrom(s, 0).0;
    RemoveParenthesesNoGroup(s);
    StripTrimmed(s);
  }

  /** The word after the opening parenthesis of "(a,b)" ends at the comma,
      which is not a closing parenthesis. */
  lemma CommaGroupNotAGroup(s: string, a: string, b: string)
    requires IsWord(a) && IsWord(b) && s == "(" + a + "," + b + ")"
    ensures GroupAt(s, 0) == None
  {
    var c := |a| + 1;
    assert s[c] == ',';
    assert forall k :: 1 <= k < c ==> s[k] == a[k - 1];
    WordEndAt(s, 1, c);
  }

  /** "(a,b)" opens a parenthesis only at its start, and is trimmed. */
  lemma CommaGroupOpensOnce(s: string, a: string, b: string)
    requires IsWord(a) && IsWord(b) && s == "(" + a + "," + b + ")"
    ensures forall k :: 1 <= k < |s| ==> s[k] != '('
    ensures Trimmed(s)
  {
    var c := |a| + 1;
    assert forall k :: 1 <= k < c ==> s[k] == a[k - 1];
    assert forall k :: c < k < |s| - 1 ==> s[k] == b[k - c - 1];
  }

  /** The result can begin with ", " when the text itself does, as in
      ", x": the normaliser only guarantees that no item is empty and that
      the result is free of surrounding whitespace. */
  lemma RemoveParenthesesMayLeadWithSeparator(x: string)
    requires '(' !in x && |x| > 0 && !IsSpace(x[|x| - 1])
    ensures RemoveParentheses(", " + x) == ", " + x
  {
    var s := ", " + x;
    assert s[0] == ',' && s[|s| - 1] == x[|x| - 1];
    assert '(' !in s by {
      assert forall k :: 2 <= k < |s| ==> s[k] == x[k - 2];
    }
    RemoveParenthesesNoOpen(s);
    StripTrimmed(s);
  }
}

=== FILE: pytext.dfy ===
/** The handful of Python `str` operations the generator relies on:
    `isspace`/`strip`, `split` on a one-character separator, `join`
    and character replacement. */
module PyText {

  /** Python's `str.isspace` for one character: exactly the characters
      that `str.strip()` with no argument removes. Note that U+00A0
      (no-break space) is one of them. */
  predicate IsSpace(c: char) {
    || ('\t' <= c <= '\r')
    || ('\U{1C}' <= c <= '\U{1F}')
    || c == ' '
    || c == '\U{85}'
    || c == '\U{A0}'
    || c == '\U{1680}'
    || ('\U{2000}' <= c <= '\U{200A}')
    || c == '\U{2028}'
    || c == '\U{2029}'
    || c == '\U{202F}'
    || c == '\U{205F}'
    || c == '\U{3000}'
  }

  /** Every character is whitespace (the empty string included). */
  predicate Blank(s: string) {
    forall i :: 0 <= i < |s| ==> IsSpace(s[i])
  }

  /** `s.lstrip()`: `s` without its leading whitespace. */
  function LStrip(s: string): (r: string)
    ensures |r| <= |s|
    ensures |r| == 0 || !IsSpace(r[0])
  {
    if |s| > 0 && IsSpace(s[0]) then LStrip(s[1..]) else s
  }

  /** What `LStrip` removes is a blank prefix: the result is the suffix
      after it. */
  lemma {:induction false} LStripSuffix(s: string)
    ensures LStrip(s) == s[|s| - |LStrip(s)|..]
    ensures Blank(s[..|s| - |LStrip(s)|])
    decreases |s|
  {
    if |s| > 0 && IsSpace(s[0]) {
      LStripSuffix(s[1..]);
      var n := |s| - |LStrip(s)|;
      assert s[1..][n - 1..] == s[n..];
      assert forall k :: 1 <= k < n ==> s[..n][k] == s[1..][..n - 1][k - 1];
    }
  }

  /** `s.rstrip()`: `s` without its trailing whitespace. */
  function RStrip(s: string): (r: string)
    ensures |r| <= |s|
    ensures |r| == 0 || (!IsSpace(r[|r| - 1]) && r[0] == s[0])
  {
    if |s| > 0 && IsSpace(s[|s| - 1]) then RStrip(s[..|s| - 1]) else s
  }

  /** What `RStrip` removes is a blank suffix: the result is the prefix
      before it. */
  lemma {:induction false} RStripPrefix(s: string)
    ensures RStrip(s) == s[..|RStrip(s)|]
    ensures Blank(s[|RStrip(s)|..])
    decreases |s|
  {
    if |s| > 0 && IsSpace(s[|s| - 1]) {
      var t := s[..|s| - 1];
      RStripPrefix(t);
      var n := |RStrip(s)|;
      assert t[..n] == s[..n];
      assert s[n..] == t[n..] + [s[|s| - 1]];
    }
  }

  /** The trimmed factor `s[i..j]`: whitespace on both sides, and no
      whitespace at either end of the factor itself. */
  ghost predicate IsTrim(s: string, i: int, j: int) {
    && 0 <= i <= j <= |s|
    && Blank(s[..i])
    && Blank(s[j..])
    && (i == j || (!IsSpace(s[i]) && !IsSpace(s[j - 1])))
  }

  /** Neither end of `t` is whitespace (vacuously so for the empty string). */
  predicate Trimmed(t: string) {
    |t| == 0 || (!IsSpace(t[0]) && !IsSpace(t[|t| - 1]))
  }

  /** `s.strip()`. */
  function Strip(s: string): (r: string)
    ensures |r| <= |s|
    ensures Trimmed(r)
  {
    RStrip(LStrip(s))
  }

  /** Every character of a blank prefix `s[..i]` is whitespace. */
  lemma BlankPrefixChars(s: string, i: int)
    requires 0 <= i <= |s| && Blank(s[..i])
    ensures forall k :: 0 <= k < i ==> IsSpace(s[k])
  {
    assert forall k :: 0 <= k < i ==> s[..i][k] == s[k];
  }

  /** Every character of a blank suffix `s[j..]` is whitespace. */
  lemma BlankSuffixChars(s: string, j: int)
    requires 0 <= j <= |s| && Blank(s[j..])
    ensures forall k :: j <= k < |s| ==> IsSpace(s[k])
  {
    assert forall k :: j <= k < |s| ==> s[j..][k - j] == s[k];
  }

  /** `Strip` removes exactly the leading and trailing whitespace: its result
      is the factor that `IsTrim` describes. */
  lemma StripIsTrim(s: string) returns (i: nat, j: nat)
    ensures IsTrim(s, i, j) && Strip(s) == s[i..j]
  {
    var l := LStrip(s);
    var r := RStrip(l);
    LStripSuffix(s);
    RStripPrefix(l);
    i, j := |s| - |l|, |s| - |l| + |r|;
    FactorOfSuffix(s, i, l, r);
    if |r| > 0 {
      assert s[i] == r[0];
      assert s[j - 1] == r[|r| - 1];
    }
  }

  /** A prefix `r` of the suffix `l` of `s` starting at `i` sits in `s` at
      `i`, and what follows it in `l` is what follows it in `s`. */
  lemma FactorOfSuffix(s: string, i: nat, l: string, r: string)
    requires i <= |s| && l == s[i..] && |r| <= |l| && r == l[..|r|]
    ensures s[i..i + |r|] == r && s[i + |r|..] == l[|r|..]
  {
    assert s[i..i + |r|] == s[i..][..|r|];
    assert s[i + |r|..] == s[i..][|r|..];
  }

  /** The trimmed factor is unique: whenever `IsTrim(s, i, j)` holds, `Strip`
      returns `s[i..j]`. */
  lemma StripUnique(s: string, i: int, j: int)
    requires IsTrim(s, i, j)
    ensures Strip(s) == s[i..j]
  {
    var i0, j0 := StripIsTrim(s);
    BlankPrefixChars(s, i);
    BlankSuffixChars(s, j);
    BlankPrefixChars(s, i0);
    BlankSuffixChars(s, j0);
    if i0 < j0 {
      assert !IsSpace(s[i0]) && !IsSpace(s[j0 - 1]);
      assert i == i0 && j == j0;
    } else {
      assert i == j;
    }
  }

  /** A string strips to nothing exactly when it is all whitespace. */
  lemma StripEmptyIffBlank(s: string)
    ensures |Strip(s)| == 0 <==> Blank(s)
  {
    var i, j := StripIsTrim(s);
    BlankPrefixChars(s, i);
    BlankSuffixChars(s, j);
  }

  /** A string with no whitespace at either end strips to itself. */
  lemma StripTrimmed(t: string)
    requires Trimmed(t)
    ensures Strip(t) == t
  {
    if |t| > 0 {
      assert LStrip(t) == t;
      assert RStrip(t) == t;
    }
  }

  /** `s.split(d)` for a one-character separator `d`: always at least one
      piece, pieces may be empty. */
  function Split(s: string, d: char): (r: seq<string>)
    ensures |r| >= 1
    ensures forall i :: 0 <= i < |r| ==> d !in r[i]
  {
    if |s| == 0 then [[]]
    else
      var rest := Split(s[1..], d);
      if s[0] == d then [[]] + rest
      else [[s[0]] + rest[0]] + rest[1..]
  }

  /** `sep.join(parts)`; the join of no parts is the empty string. */
  function Join(parts: seq<string>, sep: string): string {
    if |parts| == 0 then []
    else if |parts| == 1 then parts[0]
    else parts[0] + sep + Join(parts[1..], sep)
  }

  /** Splitting and joining back with the separator reproduces the input. */
  lemma {:induction false} SplitJoin(s: string, d: char)
    ensures Join(Split(s, d), [d]) == s
  {
    if |s| > 0 {
      SplitJoin(s[1..], d);
      var rest := Split(s[1..], d);
      if s[0] != d {
        if |rest| > 1 {
          assert ([s[0]] + rest[0]) + [d] + Join(rest[1..], [d]) == [s[0]] + (rest[0] + [d] + Join(rest[1..], [d]));
        }
        assert s == [s[0]] + s[1..];
      } else {
        assert s == [s[0]] + s[1..];
      }
    }
  }

  /** Conversely, pieces free of the separator are recovered by splitting
      their join. */
  lemma {:induction false} JoinSplit(parts: seq<string>, d: char)
    requires |parts| >= 1
    requires forall i :: 0 <= i < |parts| ==> d !in parts[i]
    ensures Split(Join(parts, [d]), d) == parts
  {
    if |parts| == 1 {
      SplitOfFree(parts[0], d);
    } else {
      JoinSplit(parts[1..], d);
      var tail := Join(parts[1..], [d]);
      var rest := [d] + tail;
      assert rest[0] == d && rest[1..] == tail;
      assert Split(rest, d) == [[]] + parts[1..];
      SplitConcat(parts[0], rest, d);
      assert Join(parts, [d]) == parts[0] + rest;
      assert parts[0] + [] == parts[0];
      assert parts == [parts[0]] + parts[1..];
    }
  }

  /** A string without the separator splits into itself. */
  lemma {:induction false} SplitOfFree(s: string, d: char)
    requires d !in s
    ensures Split(s, d) == [s]
  {
    if |s| > 0 {
      SplitOfFree(s[1..], d);
      assert s == [s[0]] + s[1..];
    }
  }

  /** A separator-free prefix is glued onto the first piece of the rest. */
  lemma {:induction false} SplitConcat(a: string, b: string, d: char)
    requires d !in a
    ensures Split(a + b, d) == [a + Split(b, d)[0]] + Split(b, d)[1..]
  {
    if |a| == 0 {
      var tb := Split(b, d);
      assert a + b == b;
      assert a + tb[0] == tb[0];
      assert tb == [tb[0]] + tb[1..];
    } else {
      var tb := Split(b, d);
      SplitConcat(a[1..], b, d);
      var ab := a + b;
      assert |ab| > 0 && ab[0] == a[0] && a[0] != d;
      assert ab[1..] == a[1..] + b;
      var rest := Split(ab[1..], d);
      assert rest == [a[1..] + tb[0]] + tb[1..];
      assert Split(ab, d) == [[ab[0]] + rest[0]] + rest[1..];
      assert [a[0]] + (a[1..] + tb[0]) == a + tb[0];
    }
  }

  /** `"".join(parts)`: all pieces, one after the other. */
  function Concat(parts: seq<string>): string {
    if |parts| == 0 then [] else parts[0] + Concat(parts[1..])
  }

  /** Concatenation distributes over appending sequences of pieces. */
  lemma {:induction false} ConcatAppend(a: seq<string>, b: seq<string>)
    ensures Concat(a + b) == Concat(a) + Concat(b)
  {
    if |a| > 0 {
      ConcatAppend(a[1..], b);
      assert (a + b)[1..] == a[1..] + b;
    } else {
      assert a + b == b;
    }
  }

  /** `s.replace(a, b)` for single characters. */
  function ReplaceChar(s: string, a: char, b: char): (r: string)
    ensures |r| == |s|
    ensures forall i :: 0 <= i < |s| ==> r[i] == (if s[i] == a then b else s[i])
  {
    if |s| == 0 then []
    else [if s[0] == a then b else s[0]] + ReplaceChar(s[1..], a, b)
  }

  /** After replacing every `a` by a different `b`, no `a` is left. */
  lemma ReplaceCharRemoves(s: string, a: char, b: char)
    requires a != b
    ensures a !in ReplaceChar(s, a, b)
  {
    var r := ReplaceChar(s, a, b);
    assert forall i :: 0 <= i < |r| ==> r[i] != a;
  }

  /** The head and tail of a concatenation with a non-empty left part. */
  lemma AppendFirst<T>(a: seq<T>, b: seq<T>)
    requires |a| > 0
    ensures (a + b)[0] == a[0] && (a + b)[1..] == a[1..] + b
  {
  }

  lemma ConcatAssoc<T>(h: seq<T>, m: seq<T>, n: seq<T>)
    ensures h + (m + n) == (h + m) + n
  {
  }
}

=== FILE: records.dfy ===
/** One row of the input table and the ways the layouts read it: a missing
    column, a blank (NaN) cell used as text and the other failures that end
    the generator with an exception become an `Error`. */
module Records {
  import opened Wrappers
  import opened Cells

  /** A table row: column name to cell. */
  type Record = map<string, Cell>

  /** Why writing a record fails. */
  datatype Error =
    | MissingField(field: string)         // the row has no such column
    | NotText(field: string)              // a blank (NaN) cell is used as a string
    | AuthorNoMatch(line: string)         // an author line the author pattern rejects
    | AffiliationNoMatch(line: string)    // an affiliation line the pattern rejects
    | ImageMissing(path: string)          // the figure file cannot be opened
    | ZeroResolution(path: string)        // the figure reports a resolution of 0
    | NoAffiliationRun                    // an empty affiliation cell leaves no run to format

  /** `record[field]`. */
  function Get(rec: Record, field: string): (r: Result<Cell, Error>)
    ensures r.Ok? <==> field in rec
    ensures r.Ok? ==> r.value == rec[field]
    ensures r.Err? ==> r.error == MissingField(field)
  {
    if field in rec then Ok(rec[field]) else Err(MissingField(field))
  }

  /** `record[field]` used as a string. */
  function GetText(rec: Record, field: string): (r: Result<string, Error>)
    ensures r.Ok? <==> field in rec && rec[field].Str?
    ensures r.Ok? ==> r.value == rec[field].text
    ensures r.Err? ==> r.error == if field in rec then NotText(field) else MissingField(field)
  {
    var c :- Get(rec, field);
    if c.Str? then Ok(c.text) else Err(NotText(field))
  }

  /** `_to_array(record[field], '\n')`. */
  function GetLines(rec: Record, field: string): (r: Result<seq<string>, Error>)
    ensures r.Ok? <==> field in rec
    ensures r.Ok? ==> r.value == ToArray(rec[field], '\n')
  {
    var c :- Get(rec, field);
    Ok(ToArray(c, '\n'))
  }
}

=== FILE: wrappers.dfy ===
/** Failure-compatible Option and Result types used throughout the model. */
module Wrappers {

  datatype Option<+T> = None | Some(value: T) {
    predicate IsFailure() { None? }

    function PropagateFailure<U>(): Option<U>
      requires None?
    {
      None
    }

    function Extract(): T
      requires Some?
    {
      value
    }
  }

  /** Ok carries a value; Err carries the error that aborts the run. */
  datatype Result<+R, +E> = Ok(value: R) | Err(error: E) {
    predicate IsFailure() { Err? }

    function PropagateFailure<U>(): Result<U, E>
      requires Err?
    {
      Err(error)
    }

    function Extract(): R
      requires Ok?
    {
      value
    }
  }
}
